=== FILE: README.md ===
# Condition extraction, modelled in Dafny

This project models the condition-extraction engine of a Chia full node (`chia/util/condition_tools.py`) and the `condition_dict` view of the `NPC` record (`chia/types/name_puzzle_condition.py`). A puzzle runs and produces an output tree. The engine turns that tree into the artifacts consensus checks, in four stages:

- **Parse.** Each node of the output becomes a `ConditionVarPair(opcode, vars)`. Malformed nodes give `INVALID_CONDITION`. Opcodes the table does not know become `UNKNOWN`.
- **Classify.** `conditions_by_opcode` groups the conditions into an insertion-ordered dict from opcode to condition list.
- **Project.** The dict is read out as:
  - (public key, message) pairs for AGG_SIG and AGG_SIG_ME;
  - the coins CREATE_COIN makes;
  - coin-scoped and puzzle-scoped announcements and their names;
  - batch announcement names over a list of NPCs.
- **Orchestrate.** `conditions_for_solution` and `conditions_dict_for_solution` map what the interpreter did to an `(error, result, cost)` triple.

Files and modules:

- `types.dfy` (`Types`): bytes, the output tree `SExp`, opcodes, conditions, coins, announcements. Python's "return or raise" is one of two outcome types:
  - `Outcome` = `Ok | Error(err) | Raised(exc)` for functions that return `(error, value)`;
  - `Py` = `Return | Raise(exc)` for functions that return a plain value.
- `ordered_dict.dfy` (`OrderedDict`): a Python dict as an association list in insertion order:
  - `Get` is `dict.get`;
  - `Set` is `d[k] = v`, which overwrites in place or appends;
  - `Flatten` concatenates the values.
- `condition_tools.dfy` (`ConditionTools`): every function of `condition_tools.py`.
- `name_puzzle_condition.dfy` (`NamePuzzleCondition`): `NPC` and `condition_dict`.
- `classification.dfy` (`Classification`): `conditions_by_opcode` checked against two independent reference definitions:
  - `OpcodesInOrder`: the distinct opcodes in order of first occurrence;
  - `WithOpcode`: the in-order subsequence of conditions with a given opcode.
- `parsing.dfy` (`Parsing`): round trips and failure behaviour of the parsers.
- `projections.dfy` (`Projections`): the projections of a classified list, how AGG_SIG_ME binds a message to its coin, how the batch functions relate to the per-dict ones, and end-to-end runs.

Code the model cannot see is passed in as function parameters, uninterpreted:

- the byte-to-`ConditionOpcode` table (`None` where the enum constructor raises `ValueError`);
- `Program.as_iter()` (the nodes it yields, then how it stops);
- `G1Element.from_bytes` (`None` where it raises);
- `int_from_bytes`;
- `Coin.name()` and `Announcement.name()`.

The result of `run_with_cost` is the datatype `RunResult`: either it raised, or it returned a cost and an output tree.

`SignedPairs` is the reference for the signature-pair loops of `pkm_pairs_for_conditions_dict`: one (decoded key, `vars[1]` + suffix) pair per condition, in order. `KeyMessagePairs` and `PkmPairsForConditionsDict` are proved equal to it whenever every key decodes.

Four behaviours of the code are easy to misread. The model follows the code as written:

- **Cost after a parse error.** A parse error in `conditions_for_solution` still reports the interpreter's cost. Only `conditions_dict_for_solution` zeroes it.
- **Extra arguments.** A condition node with more than three items is not rejected. Only `items[1]` is kept.
- **Negative amounts.** Nothing in this code rejects a negative CREATE_COIN amount.
- **Short nodes.** A one-item list node whose item is a byte string raises `IndexError`, which nothing in this code catches. A one-item list whose item is a list gives `INVALID_CONDITION` before `items[1]` is read. The empty list `()` is nil, an atom, so it gives `INVALID_CONDITION`. In the model it is `Atom([])`. `List([])` stands for no node a puzzle can produce; the model sends it to `IndexError`.

## Model

| member | source | states |
|---|---|---|
| `ConditionTools.ParseSexpToCondition` | chia/util/condition_tools.py:16-34 | success iff the node is a list of at least two items whose first is a byte string; an atom, or a list whose first item is itself a list, gives INVALID_CONDITION; a one-item list whose item is a byte string raises IndexError; the opcode is the table's entry or UNKNOWN; exactly three items keep two arguments, any other length keeps only the first |
| `ConditionTools.ParseEach` | chia/util/condition_tools.py:44-53 | success iff every yielded node parses and the iteration ends normally; then one condition per node, in order, each equal to that node's parse; every error is INVALID_CONDITION |
| `ConditionTools.ParseSexpToConditions` | chia/util/condition_tools.py:37-53 | the same over `as_iter()`, and a ConsensusError from the iteration never escapes: it becomes INVALID_CONDITION |
| `ConditionTools.AddCondition` | chia/util/condition_tools.py:65-67 | one pass of the loop keeps the dict free of repeated keys |
| `ConditionTools.ConditionsByOpcode` | chia/util/condition_tools.py:56-68 | the result is a dict: no opcode is a key twice |
| `ConditionTools.KeyMessagePairs` | chia/util/condition_tools.py:76-83 | returns iff every key decodes, and then exactly the signed pairs; otherwise the key decoder's exception propagates |
| `ConditionTools.PkmPairsForConditionsDict` | chia/util/condition_tools.py:71-84 | returns iff the AGG_SIG keys decode and, when a coin name is given, the AGG_SIG_ME keys too; the result is the AGG_SIG pairs with raw messages, followed by the AGG_SIG_ME pairs with the coin name appended, and only those when a coin name is given |
| `ConditionTools.NewCoins` | chia/util/condition_tools.py:99-107 | one `Coin(parent, vars[0], int_from_bytes(vars[1]))` per condition, in order |
| `ConditionTools.CreatedOutputsForConditionsDict` | chia/util/condition_tools.py:94-108 | one coin per CREATE_COIN entry, in order, duplicates kept, each a child of the input coin |
| `ConditionTools.AnnouncementsOf` | chia/util/condition_tools.py:116-119 | one `Announcement(origin, vars[0])` per condition, in order |
| `ConditionTools.Names` | chia/util/condition_tools.py:163 | the name of each announcement, pointwise, same length |
| `ConditionTools.CoinAnnouncementsForConditionsDict` | chia/util/condition_tools.py:111-120 | one announcement per CREATE_ANNOUNCEMENT_WITH_ID entry, origin the input coin's name, message `vars[0]` |
| `ConditionTools.PuzzleAnnouncementsForConditionsDict` | chia/util/condition_tools.py:123-132 | one announcement per CREATE_ANNOUNCEMENT_WITH_PUZZLEHASH entry, origin the input coin's puzzle hash, message `vars[0]` |
| `ConditionTools.CoinAnnouncementNamesForConditionsDict` | chia/util/condition_tools.py:159-164 | the name of each coin announcement, pointwise |
| `ConditionTools.PuzzleAnnouncementNamesForConditionsDict` | chia/util/condition_tools.py:167-172 | the name of each puzzle announcement, pointwise |
| `ConditionTools.ConditionsForSolution` | chia/util/condition_tools.py:185-195 | an EvalError gives SEXP_ERROR, no result and cost 0; any other interpreter exception propagates; an error and a result never come together; a parse error keeps the interpreter's cost; a successful parse returns no error, the parsed conditions and the interpreter's cost; an EvalError raised while iterating the output gives SEXP_ERROR at cost 0; any other exception from parsing, IndexError included, propagates |
| `ConditionTools.ConditionsDictForSolution` | chia/util/condition_tools.py:175-182 | an error means cost 0 and no dict; raises exactly when the list variant raises; on success the dict is the grouped conditions, at the interpreter's cost |
| `OrderedDict.Get` | chia/util/condition_tools.py:76 | `d.get(k, default)` gives the default for a missing key and, in a dict, the value stored under k |
| `OrderedDict.Set` | chia/types/name_puzzle_condition.py:21 | `d[k] = v` keeps the key order when k is present and appends k at the end otherwise |
| `OrderedDict.GetSet` | chia/util/condition_tools.py:66-67 | after `d[k] = v`, k looks up v and every other key looks up as before |
| `NamePuzzleCondition.AssignEach` | chia/types/name_puzzle_condition.py:19-21 | the assignment loop yields a dict with no repeated key |
| `NamePuzzleCondition.AssignEachKeys` | chia/types/name_puzzle_condition.py:19-21 | an opcode is a key iff some pair carries it |
| `NamePuzzleCondition.AssignEachGet` | chia/types/name_puzzle_condition.py:19-21 | the value under an opcode is the list of the last pair carrying it |
| `NamePuzzleCondition.LastListForLastPair` | chia/types/name_puzzle_condition.py:20-21 | a pair that no later pair shares an opcode with is the last one for its opcode |
| `NamePuzzleCondition.ConditionDictKeys` | chia/types/name_puzzle_condition.py:17-22 | the keys of `condition_dict` are exactly the opcodes in `conditions`, each once |
| `NamePuzzleCondition.ConditionDictLastWins` | chia/types/name_puzzle_condition.py:20-21 | when an opcode repeats, the last pair's list wins |
| `NamePuzzleCondition.ConditionDictDistinct` | chia/types/name_puzzle_condition.py:19-22 | with pairwise distinct opcodes, each opcode looks up its own list |
| `NamePuzzleCondition.ConditionDictEmpty` | chia/types/name_puzzle_condition.py:19-22 | no conditions, empty dict |
| `Classification.ConditionsByOpcodeGroups` | chia/util/condition_tools.py:62-68 | the keys are the distinct opcodes in order of first occurrence; every opcode looks up exactly the in-order subsequence of conditions carrying it |
| `Classification.ConditionsByOpcodeKeys` | chia/util/condition_tools.py:64-67 | an opcode is a key iff some condition carries it |
| `Classification.FirstOccurrenceOrder` | chia/util/condition_tools.py:64-67 | before any condition with a later key, every earlier key has already occurred |
| `Classification.ConditionsByOpcodeKeepsAll` | chia/util/condition_tools.py:62-68 | the lists hold exactly the input conditions as a multiset, UNKNOWN included, and their lengths add up to the input length |
| `Classification.AddConditionContents` | chia/util/condition_tools.py:65-67 | one pass of the loop adds exactly one occurrence of the condition to the dict's contents |
| `Classification.ConditionsByOpcodeIdempotent` | chia/util/condition_tools.py:56-68 | classifying the flattened classification gives back the same dict |
| `Parsing.ParseConditionRoundTrip` | chia/util/condition_tools.py:32-34 | a node written from an opcode and one or two arguments parses back to that opcode and those arguments |
| `Parsing.ParseConditionDropsLaterArgs` | chia/util/condition_tools.py:32-34 | with three or more arguments only the first is kept |
| `Parsing.OpcodeTableNeverDecides` | chia/util/condition_tools.py:28-31 | whether a node parses, its arguments, and any failure do not depend on the opcode table; an unknown byte string becomes UNKNOWN |
| `Parsing.ParseEachStopsAtFirstFailure` | chia/util/condition_tools.py:46-49 | the list parse fails with the outcome of the first node that does not parse, whatever follows |
| `Parsing.ParseEachReachesStop` | chia/util/condition_tools.py:45-52 | when every node parses, an interrupted iteration yields its exception |
| `Parsing.ParseSexpToConditionsInterrupted` | chia/util/condition_tools.py:51-52 | an iteration ConsensusError becomes INVALID_CONDITION; any other exception propagates |
| `Projections.AggsigOfClassified` | chia/util/condition_tools.py:87-91 | `aggsig_in_conditions_dict` of a classified list is exactly its AGG_SIG conditions, in order |
| `Projections.CreatedOutputsOfClassified` | chia/util/condition_tools.py:98-108 | from a classified list, one coin per CREATE_COIN condition of the input, in input order |
| `Projections.PkmPairsOfClassified` | chia/util/condition_tools.py:75-84 | the number of pairs is the number of AGG_SIG conditions, plus the number of AGG_SIG_ME conditions when a coin name is given |
| `Projections.AggSigSignsRawMessage` | chia/util/condition_tools.py:76-80 | the i-th pair is the i-th AGG_SIG key with its message unchanged |
| `Projections.AggSigMeBindsCoin` | chia/util/condition_tools.py:81-83 | an AGG_SIG_ME pair signs the raw message followed by the coin name, which a non-empty coin name makes different from the raw message |
| `Projections.AggSigMePairAt` | chia/util/condition_tools.py:81-83 | the AGG_SIG_ME pairs follow all AGG_SIG pairs, at matching positions |
| `Projections.AggSigMeMessagesDifferAcrossCoins` | chia/util/condition_tools.py:81-83 | two distinct coin names of equal width never give the same AGG_SIG_ME message |
| `Projections.PkmPairsWithoutCoinName` | chia/util/condition_tools.py:81 | without a coin name the AGG_SIG_ME conditions are ignored entirely |
| `Projections.CoinAnnouncementNamesAreNamesOfMessages` | chia/util/condition_tools.py:159-164 | each coin announcement name is the name of (input coin name, message) |
| `Projections.PuzzleAnnouncementNamesAreNamesOfMessages` | chia/util/condition_tools.py:167-172 | each puzzle announcement name is the name of (input puzzle hash, message) |
| `Projections.NpcAnnouncementNamesConcat` | chia/util/condition_tools.py:137-143 | a batch over `a + b` is the batch over `a` followed by the batch over `b` |
| `Projections.PairNamesConcat` | chia/util/condition_tools.py:138-143 | one spend's share over `p + q` is its share over `p` followed by its share over `q`, so every matching pair contributes, repeated opcodes included |
| `Projections.PairNamesAbsent` | chia/util/condition_tools.py:138-139 | pairs without the opcode contribute nothing |
| `Projections.PairNamesSingle` | chia/util/condition_tools.py:138-143 | with distinct opcodes, exactly the one matching pair contributes |
| `Projections.BatchMatchesConditionDict` | chia/util/condition_tools.py:138-143 | with distinct opcodes, one NPC's batch share equals the per-dict names of its `condition_dict` |
| `Projections.NpcAnnouncementNamesSingle` | chia/util/condition_tools.py:137-143 | a one-NPC batch is that NPC's share under its scope |
| `Projections.CoinBatchMatchesConditionDict` | chia/util/condition_tools.py:135-144 | with distinct opcodes, `coin_announcements_names_for_npc([npc])` equals the coin announcement names of its `condition_dict` |
| `Projections.PuzzleBatchMatchesConditionDict` | chia/util/condition_tools.py:147-156 | with distinct opcodes, `puzzle_announcements_names_for_npc([npc])` equals the puzzle announcement names of its `condition_dict` |
| `Projections.BatchCountsRepeatedPairs` | chia/util/condition_tools.py:138-143 | two pairs with the same opcode both contribute to the batch, while `condition_dict` keeps only the second |
| `Projections.SolutionOfParsed` | chia/util/condition_tools.py:179-182 | a parsed output yields its grouped conditions at the interpreter's cost |
| `Projections.EndToEndCreateCoin` | chia/util/condition_tools.py:94-108 | the output `((51 ph 100))` creates exactly `Coin(parent, ph, 100)` |
| `Projections.EndToEndCoinAnnouncement` | chia/util/condition_tools.py:159-164 | the output `((60 msg))` announces exactly the name of (coin name, msg) |
| `Projections.EvalErrorCostsNothing` | chia/util/condition_tools.py:194-195 | an interpreter EvalError yields SEXP_ERROR at cost 0 from both solution functions |
| `Projections.SolutionDictGroupsParsedConditions` | chia/util/condition_tools.py:179-182 | on success the dict's lists are the parsed conditions grouped by opcode |

## Left out

- The CLVM interpreter (`run_with_cost`), `Program.listp`, `as_python` and `as_iter` are abstracted. The output is the tree datatype `SExp`; the iterator and the run result are inputs.
- The opcode table, BLS key decoding (`G1Element.from_bytes`), `int_from_bytes`, and the SHA-256 names in `Coin.name()` and `Announcement.name()` are uninterpreted parameters. No property relies on hash injectivity or on how integers are decoded.
- The projections read `vars[0]` and `vars[1]` without checking. Their conditions are required to carry enough byte-string arguments (`AllHaveAtomArgs`). One reason is that a short `vars` raises IndexError there. The other is that the model's signature pairs, `Coin` and `Announcement` hold `Bytes`, so they cannot hold a nested-list argument, which the Python passes on unchecked as an AGG_SIG message, a puzzle hash or an announcement message. For AGG_SIG_ME, `cvp.vars[1] + coin_name` raises TypeError on a list message; the requires excludes this error path too. What `Coin`, `Announcement` or `name()` do with such a value is not modelled.
- `uint64(cost)` raising for an out-of-range cost is not modelled: the interpreter's cost is already of type `uint64`.
- The `assert cvp.vars[1] is not None` in `pkm_pairs_for_conditions_dict` always holds in the model, because an argument is a tree node and never None.
- `AggsigInConditionsDict`, `NpcAnnouncementNames`, `CoinAnnouncementsNamesForNpc` and `PuzzleAnnouncementsNamesForNpc` carry no contract of their own. Their properties are stated by the `Projections` lemmas in the table.
- `ConditionTools.OpcodeFor` (the try/except at chia/util/condition_tools.py:28-31) carries no contract of its own. `ParseSexpToCondition` and `Parsing.OpcodeTableNeverDecides` state what it does.
- `ConditionTools.PairAnnouncementNames` (the inner loop at chia/util/condition_tools.py:138-143) carries no contract of its own. `Projections.PairNamesConcat` states that every matching pair contributes in order, repeated opcodes included. `PairNamesAbsent` states that non-matching pairs contribute nothing, and `PairNamesSingle` and `BatchMatchesConditionDict` state the distinct-opcode case.
- `NamePuzzleCondition.ConditionDict` (`NPC.condition_dict`, chia/types/name_puzzle_condition.py:17-22) carries no contract of its own. The `ConditionDict*` lemmas in the table state what it does.
- `Coin` is a plain record: any checks the `Coin` constructor (chia/types/blockchain_format/coin.py) makes on its fields, such as a 32-byte puzzle hash or a uint64 amount, are not modelled.
- Streamable serialisation of `NPC`, and logging, are not modelled.

=== FILE: classification.dfy ===
/**
 What conditions_by_opcode computes, stated against two reference
 definitions: the distinct opcodes in order of first occurrence, and for each
 opcode the in-order subsequence of conditions carrying it.
 */
module Classification {
  import opened Types
  import opened OrderedDict
  import opened ConditionTools

  /** The conditions whose opcode is `op`, in input order. */
  function WithOpcode(cs: seq<ConditionVarPair>, op: Opcode): seq<ConditionVarPair> {
    if |cs| == 0 then []
    else WithOpcode(cs[..|cs| - 1], op) + if cs[|cs| - 1].opcode == op then [cs[|cs| - 1]] else []
  }

  /** The distinct opcodes of `cs`, in order of first occurrence. */
  function OpcodesInOrder(cs: seq<ConditionVarPair>): seq<Opcode> {
    if |cs| == 0 then []
    else
      var ks := OpcodesInOrder(cs[..|cs| - 1]);
      if cs[|cs| - 1].opcode in ks then ks else ks + [cs[|cs| - 1].opcode]
  }

  predicate Occurs(cs: seq<ConditionVarPair>, op: Opcode) {
    exists i :: 0 <= i < |cs| && cs[i].opcode == op
  }

  predicate Distinct(ks: seq<Opcode>) {
    forall i, j :: 0 <= i < j < |ks| ==> ks[i] != ks[j]
  }

  // ------------------------------------------------ reference definitions

  lemma {:induction false} OpcodesInOrderOccur(cs: seq<ConditionVarPair>, op: Opcode)
    ensures op in OpcodesInOrder(cs) <==> Occurs(cs, op)
    decreases |cs|
  {
    if |cs| > 0 {
      var p := cs[..|cs| - 1];
      OpcodesInOrderOccur(p, op);
      if Occurs(cs, op) && cs[|cs| - 1].opcode != op {
        var i :| 0 <= i < |cs| && cs[i].opcode == op;
        assert p[i] == cs[i];
      }
      if Occurs(p, op) {
        var i :| 0 <= i < |p| && p[i].opcode == op;
        assert cs[i] == p[i];
      }
    }
  }

  lemma {:induction false} OpcodesInOrderDistinct(cs: seq<ConditionVarPair>)
    ensures Distinct(OpcodesInOrder(cs))
    decreases |cs|
  {
    if |cs| > 0 {
      OpcodesInOrderDistinct(cs[..|cs| - 1]);
    }
  }

  lemma {:induction false} WithOpcodeSelects(cs: seq<ConditionVarPair>, op: Opcode)
    ensures Homogeneous(WithOpcode(cs, op), op)
    ensures Occurs(cs, op) <==> |WithOpcode(cs, op)| > 0
    decreases |cs|
  {
    if |cs| > 0 {
      var p := cs[..|cs| - 1];
      WithOpcodeSelects(p, op);
      if Occurs(cs, op) && cs[|cs| - 1].opcode != op {
        var i :| 0 <= i < |cs| && cs[i].opcode == op;
        assert p[i] == cs[i];
      }
      if Occurs(p, op) {
        var i :| 0 <= i < |p| && p[i].opcode == op;
        assert cs[i] == p[i];
      }
    }
  }

  lemma {:induction false} WithOpcodeConcat(a: seq<ConditionVarPair>, b: seq<ConditionVarPair>, op: Opcode)
    ensures WithOpcode(a + b, op) == WithOpcode(a, op) + WithOpcode(b, op)
    decreases |b|
  {
    if |b| == 0 {
      assert a + b == a;
    } else {
      assert (a + b)[..|a + b| - 1] == a + b[..|b| - 1];
      WithOpcodeConcat(a, b[..|b| - 1], op);
    }
  }

  /** A run of conditions that all carry opcode k. */
  predicate Homogeneous(l: seq<ConditionVarPair>, k: Opcode) {
    forall i :: 0 <= i < |l| ==> l[i].opcode == k
  }

  lemma {:induction false} WithOpcodeOfBlock(l: seq<ConditionVarPair>, k: Opcode, op: Opcode)
    requires Homogeneous(l, k)
    ensures WithOpcode(l, op) == if op == k then l else []
    decreases |l|
  {
    if |l| > 0 {
      var p := l[..|l| - 1];
      var last := l[|l| - 1];
      forall i | 0 <= i < |p|
        ensures p[i].opcode == k
      {
        assert p[i] == l[i];
      }
      WithOpcodeOfBlock(p, k, op);
      assert last.opcode == k;
      assert p + [last] == l;
    }
  }

  lemma {:induction false} OpcodesInOrderAppendBlock(a: seq<ConditionVarPair>, l: seq<ConditionVarPair>, k: Opcode)
    requires |l| > 0 && Homogeneous(l, k)
    ensures OpcodesInOrder(a + l) == if k in OpcodesInOrder(a) then OpcodesInOrder(a) else OpcodesInOrder(a) + [k]
    decreases |l|
  {
    var p := l[..|l| - 1];
    assert (a + l)[..|a + l| - 1] == a + p;
    if |p| == 0 {
      assert a + p == a;
    } else {
      assert forall i :: 0 <= i < |p| ==> p[i] == l[i];
      OpcodesInOrderAppendBlock(a, p, k);
    }
  }

  lemma {:induction false} OpcodesInOrderPrefix(cs: seq<ConditionVarPair>, n: nat)
    requires n <= |cs|
    ensures OpcodesInOrder(cs[..n]) <= OpcodesInOrder(cs)
    decreases |cs|
  {
    if n < |cs| {
      var p := cs[..|cs| - 1];
      assert p[..n] == cs[..n];
      OpcodesInOrderPrefix(p, n);
    } else {
      assert cs[..n] == cs;
    }
  }

  // --------------------------------------------- conditions_by_opcode

  /** The keys are the distinct opcodes in order of first occurrence, and
      each key's list is the in-order subsequence with that opcode; every
      other opcode looks up as the empty list. */
  lemma {:induction false} ConditionsByOpcodeGroups(cs: seq<ConditionVarPair>)
    ensures Keys(ConditionsByOpcode(cs)) == OpcodesInOrder(cs)
    ensures forall op :: Get(ConditionsByOpcode(cs), op, []) == WithOpcode(cs, op)
    decreases |cs|
  {
    if |cs| > 0 {
      var p := cs[..|cs| - 1];
      var c := cs[|cs| - 1];
      ConditionsByOpcodeGroups(p);
      var d0 := ConditionsByOpcode(p);
      var d1 := if !HasKey(d0, c.opcode) then Set(d0, c.opcode, []) else d0;
      GetSetAll(d0, c.opcode, []);
      GetSetAll(d1, c.opcode, Get(d1, c.opcode, []) + [c]);
    }
  }

  /** The keys are exactly the opcodes that occur. */
  lemma ConditionsByOpcodeKeys(cs: seq<ConditionVarPair>, op: Opcode)
    ensures HasKey(ConditionsByOpcode(cs), op) <==> Occurs(cs, op)
  {
    ConditionsByOpcodeGroups(cs);
    OpcodesInOrderOccur(cs, op);
  }

  /** Before any occurrence of a later key, every earlier key has occurred. */
  lemma FirstOccurrenceOrder(cs: seq<ConditionVarPair>, i: nat, j: nat, q: nat)
    requires i < j < |Keys(ConditionsByOpcode(cs))|
    requires q < |cs| && cs[q].opcode == Keys(ConditionsByOpcode(cs))[j]
    ensures Occurs(cs[..q], Keys(ConditionsByOpcode(cs))[i])
  {
    ConditionsByOpcodeGroups(cs);
    OpcodesInOrderFirstOccurrence(cs, i, j, q);
  }

  lemma OpcodesInOrderFirstOccurrence(cs: seq<ConditionVarPair>, i: nat, j: nat, q: nat)
    requires i < j < |OpcodesInOrder(cs)|
    requires q < |cs| && cs[q].opcode == OpcodesInOrder(cs)[j]
    ensures Occurs(cs[..q], OpcodesInOrder(cs)[i])
  {
    var ks := OpcodesInOrder(cs);
    OpcodesInOrderDistinct(cs);
    var pre := cs[..q + 1];
    var ps := OpcodesInOrder(pre);
    OpcodesInOrderPrefix(cs, q + 1);
    assert pre[q] == cs[q];
    OpcodesInOrderOccur(pre, ks[j]);
    PrefixHoldsIndex(ps, ks, j);
    assert ps[i] == ks[i];
    OpcodesInOrderOccur(pre, ks[i]);
    assert ks[i] != ks[j];
    assert pre[..q] == cs[..q];
    OccursDropLast(pre, ks[i]);
  }

  /** In a prefix of a sequence without repeats, an element's position is
      the same as in the whole. */
  lemma PrefixHoldsIndex(ps: seq<Opcode>, ks: seq<Opcode>, j: nat)
    requires ps <= ks && Distinct(ks) && j < |ks| && ks[j] in ps
    ensures j < |ps|
  {
    var m :| 0 <= m < |ps| && ps[m] == ks[j];
    assert ks[m] == ks[j];
  }

  lemma OccursDropLast(cs: seq<ConditionVarPair>, op: Opcode)
    requires |cs| > 0 && Occurs(cs, op) && cs[|cs| - 1].opcode != op
    ensures Occurs(cs[..|cs| - 1], op)
  {
    var p :| 0 <= p < |cs| && cs[p].opcode == op;
    assert cs[..|cs| - 1][p] == cs[p];
  }

  /** No condition is dropped, UNKNOWN ones included: the lists hold
      exactly the input conditions, so their lengths add up to |cs|. */
  lemma ConditionsByOpcodeKeepsAll(cs: seq<ConditionVarPair>)
    ensures multiset(Flatten(ConditionsByOpcode(cs))) == multiset(cs)
    ensures |Flatten(ConditionsByOpcode(cs))| == |cs|
  {
    FlattenedConditions(cs);
    var f := Flatten(ConditionsByOpcode(cs));
    assert |multiset(f)| == |f| && |multiset(cs)| == |cs|;
  }

  lemma {:induction false} FlattenedConditions(cs: seq<ConditionVarPair>)
    ensures multiset(Flatten(ConditionsByOpcode(cs))) == multiset(cs)
    decreases |cs|
  {
    if |cs| > 0 {
      var p := cs[..|cs| - 1];
      FlattenedConditions(p);
      assert p + [cs[|cs| - 1]] == cs;
      FlattenedConditionsStep(p, cs[|cs| - 1]);
    }
  }

  lemma FlattenedConditionsStep(p: seq<ConditionVarPair>, c: ConditionVarPair)
    requires multiset(Flatten(ConditionsByOpcode(p))) == multiset(p)
    ensures multiset(Flatten(ConditionsByOpcode(p + [c]))) == multiset(p + [c])
  {
    var cs := p + [c];
    assert cs[..|cs| - 1] == p;
    assert ConditionsByOpcode(cs) == AddCondition(ConditionsByOpcode(p), c);
    AddConditionContents(ConditionsByOpcode(p), c);
    assert multiset(cs) == multiset(p) + multiset{c};
  }

  /** One pass of the loop adds exactly the new condition to the contents. */
  lemma AddConditionContents(d: ConditionsDict, c: ConditionVarPair)
    requires DistinctKeys(d)
    ensures multiset(Flatten(AddCondition(d, c))) == multiset(Flatten(d)) + multiset{c}
  {
    var d1 := if !HasKey(d, c.opcode) then Set(d, c.opcode, []) else d;
    if !HasKey(d, c.opcode) {
      FlattenSet(d, c.opcode, []);
      SetHasKey(d, c.opcode, [], c.opcode);
    }
    assert multiset(Flatten(d1)) == multiset(Flatten(d));
    assert HasKey(d1, c.opcode);
    var l := Get(d1, c.opcode, []);
    FlattenSet(d1, c.opcode, l + [c]);
    var a := multiset(Flatten(AddCondition(d, c)));
    assert multiset(l + [c]) == multiset(l) + multiset{c};
    MultisetRearrange(multiset(Flatten(d)), multiset(l), multiset{c});
    MultisetCancel(a, multiset(Flatten(d)) + multiset{c}, multiset(l));
  }

  /** Flattening a dict of non-empty homogeneous lists with distinct keys and
      classifying the result recovers its key order and lists. */
  lemma {:induction false} FlattenGrouped(d: ConditionsDict)
    requires DistinctKeys(d)
    requires forall i :: 0 <= i < |d| ==> |d[i].1| > 0 && Homogeneous(d[i].1, d[i].0)
    ensures OpcodesInOrder(Flatten(d)) == Keys(d)
    ensures forall op :: WithOpcode(Flatten(d), op) == Get(d, op, [])
    decreases |d|
  {
    if |d| > 0 {
      var e := d[..|d| - 1];
      var last := d[|d| - 1];
      assert e + [last] == d;
      FlattenGrouped(e);
      FlattenConcat(e, [last]);
      assert Flatten([last]) == last.1;
      assert Flatten(d) == Flatten(e) + last.1;
      assert last.0 !in Keys(e);
      OpcodesInOrderAppendBlock(Flatten(e), last.1, last.0);
      KeysSnoc(e, last);
      forall op
        ensures WithOpcode(Flatten(d), op) == Get(d, op, [])
      {
        WithOpcodeConcat(Flatten(e), last.1, op);
        WithOpcodeOfBlock(last.1, last.0, op);
        GetSnoc(e, last, op, []);
      }
    }
  }

  /** Re-classifying the flattened classification gives the same dict. */
  lemma ConditionsByOpcodeIdempotent(cs: seq<ConditionVarPair>)
    ensures ConditionsByOpcode(Flatten(ConditionsByOpcode(cs))) == ConditionsByOpcode(cs)
  {
    var d := ConditionsByOpcode(cs);
    ConditionsByOpcodeGroups(cs);
    forall i | 0 <= i < |d|
      ensures |d[i].1| > 0 && Homogeneous(d[i].1, d[i].0)
    {
      assert d[i].0 == OpcodesInOrder(cs)[i];
      OpcodesInOrderOccur(cs, d[i].0);
      WithOpcodeSelects(cs, d[i].0);
    }
    FlattenGrouped(d);
    var f := Flatten(d);
    ConditionsByOpcodeGroups(f);
    forall op | HasKey(ConditionsByOpcode(f), op)
      ensures Get(ConditionsByOpcode(f), op, []) == Get(d, op, [])
    {
    }
    Extensionality(ConditionsByOpcode(f), d, []);
  }
}

=== FILE: condition_tools.dfy ===
/**
 The condition-extraction engine: parse a puzzle's output into conditions,
 group them by opcode, project the groups into signature pairs, created coins
 and announcements, and run a puzzle end to end.

 Code this module cannot see is passed in as function parameters: the byte
 to opcode table (`table`, None where `ConditionOpcode(b)` raises
 ValueError), the tree iterator (`asIter`), the BLS key decoder (`fromBytes`,
 None where it raises), `int_from_bytes`, `Coin.name()` and
 `Announcement.name()`.
 */
module ConditionTools {
  import opened Types
  import opened OrderedDict
  import opened NamePuzzleCondition

  type OpcodeTable = Bytes -> Option<Opcode>

  /** `ConditionOpcode(b)`, with `UNKNOWN` when the table has no entry for b. */
  function OpcodeFor(table: OpcodeTable, b: Bytes): Opcode {
    table(b).GetOr(Unknown)
  }

  // ---------------------------------------------------------------- parse

  /** parse_sexp_to_condition. A list node whose first item is a byte string
      parses; a node of four or more items keeps only `items[1]`, and a one-item list
      whose item is a byte string raises IndexError when `items[1]` is read. */
  function ParseSexpToCondition(sexp: SExp, table: OpcodeTable): (r: Outcome<ConditionVarPair>)
    ensures r.Ok? <==> sexp.List? && |sexp.items| >= 2 && sexp.items[0].Atom?
    ensures r.Error? <==> !sexp.List? || (|sexp.items| > 0 && !sexp.items[0].Atom?)
    ensures r.Error? ==> r.err == InvalidCondition
    ensures r.Raised? ==> r.exc == IndexError
    ensures r.Ok? ==> r.value.opcode == OpcodeFor(table, sexp.items[0].bytes)
    ensures r.Ok? && |sexp.items| == 3 ==> r.value.vars == [sexp.items[1], sexp.items[2]]
    ensures r.Ok? && |sexp.items| != 3 ==> r.value.vars == [sexp.items[1]]
  {
    if !sexp.List? then Error(InvalidCondition)
    else
      var items := sexp.items;
      if |items| == 0 then Raised(IndexError)
      else if !items[0].Atom? then Error(InvalidCondition)
      else
        var opcode := OpcodeFor(table, items[0].bytes);
        if |items| == 3 then Ok(ConditionVarPair(opcode, [items[1], items[2]]))
        else if |items| < 2 then Raised(IndexError)
        else Ok(ConditionVarPair(opcode, [items[1]]))
  }

  /** The loop of parse_sexp_to_conditions over the nodes the iterator
      yields before ending as `stop`: the first node that does not parse
      ends it, and nothing parsed so far is returned. */
  function ParseEach(nodes: seq<SExp>, stop: Stop, table: OpcodeTable): (r: Outcome<seq<ConditionVarPair>>)
    ensures r.Ok? <==> stop.Exhausted? && forall i :: 0 <= i < |nodes| ==> ParseSexpToCondition(nodes[i], table).Ok?
    ensures r.Ok? ==> |r.value| == |nodes|
    ensures r.Ok? ==> forall i :: 0 <= i < |nodes| ==> ParseSexpToCondition(nodes[i], table) == Ok(r.value[i])
    ensures r.Error? ==> r.err == InvalidCondition
    ensures r.Raised? && stop.Exhausted? ==> r.exc == IndexError
    decreases |nodes|
  {
    if |nodes| == 0 then
      match stop
      case Exhausted => Ok([])
      case Interrupted(e) => Raised(e)
    else
      match ParseSexpToCondition(nodes[0], table)
      case Error(e) => Error(e)
      case Raised(x) => Raised(x)
      case Ok(c) =>
        var rest := ParseEach(nodes[1..], stop, table);
        assert forall i :: 1 <= i < |nodes| ==> nodes[1..][i - 1] == nodes[i];
        match rest
        case Ok(cs) => Ok([c] + cs)
        case Error(e) => Error(e)
        case Raised(x) => Raised(x)
  }

  /** parse_sexp_to_conditions: ParseEach over `sexp.as_iter()`, with a
      ConsensusError from the iteration turned into INVALID_CONDITION. */
  function ParseSexpToConditions(sexp: SExp, asIter: SExp -> Iteration, table: OpcodeTable): (r: Outcome<seq<ConditionVarPair>>)
    ensures r != Raised(ConsensusError)
    ensures r.Error? ==> r.err == InvalidCondition
    ensures r.Ok? <==>
      && asIter(sexp).stop.Exhausted?
      && forall i :: 0 <= i < |asIter(sexp).yielded| ==> ParseSexpToCondition(asIter(sexp).yielded[i], table).Ok?
    ensures r.Ok? ==> |r.value| == |asIter(sexp).yielded|
    ensures r.Ok? ==> forall i :: 0 <= i < |r.value| ==>
      ParseSexpToCondition(asIter(sexp).yielded[i], table) == Ok(r.value[i])
  {
    var it := asIter(sexp);
    var r := ParseEach(it.yielded, it.stop, table);
    if r == Raised(ConsensusError) then Error(InvalidCondition) else r
  }

  // ------------------------------------------------------------- classify

  /** One pass of the conditions_by_opcode loop: add an empty list under the
      condition's opcode if there is none yet, then append the condition. */
  function AddCondition(d: ConditionsDict, cvp: ConditionVarPair): (r: ConditionsDict)
    requires DistinctKeys(d)
    ensures DistinctKeys(r)
  {
    var d1 := if !HasKey(d, cvp.opcode) then Set(d, cvp.opcode, []) else d;
    SetKeepsDistinct(d, cvp.opcode, []);
    SetKeepsDistinct(d1, cvp.opcode, Get(d1, cvp.opcode, []) + [cvp]);
    Set(d1, cvp.opcode, Get(d1, cvp.opcode, []) + [cvp])
  }

  /** conditions_by_opcode: the loop over the conditions in order, from an empty dict. */
  function ConditionsByOpcode(conditions: seq<ConditionVarPair>): (d: ConditionsDict)
    ensures DistinctKeys(d)
    decreases |conditions|
  {
    if |conditions| == 0 then []
    else AddCondition(ConditionsByOpcode(conditions[..|conditions| - 1]), conditions[|conditions| - 1])
  }

  // -------------------------------------------------------------- project

  /** The first n arguments of c exist and are byte strings. */
  predicate HasAtomArgs(c: ConditionVarPair, n: nat) {
    n <= |c.vars| && forall i :: 0 <= i < n ==> c.vars[i].Atom?
  }

  predicate AllHaveAtomArgs(cs: seq<ConditionVarPair>, n: nat) {
    forall i :: 0 <= i < |cs| ==> HasAtomArgs(cs[i], n)
  }

  /** `cvp.vars[i]`, read as the byte string it is. */
  function Arg(c: ConditionVarPair, i: nat): Bytes
    requires i < |c.vars| && c.vars[i].Atom?
  {
    c.vars[i].bytes
  }

  /** Every condition's first argument decodes as a public key. */
  predicate KeysDecode(cs: seq<ConditionVarPair>, fromBytes: Bytes -> Option<G1Element>)
    requires AllHaveAtomArgs(cs, 1)
  {
    forall i :: 0 <= i < |cs| ==> fromBytes(Arg(cs[i], 0)).Some?
  }

  /** The pairs when every key decodes: (key, vars[1] + suffix) per condition, in order. */
  function SignedPairs(cs: seq<ConditionVarPair>, suffix: Bytes, fromBytes: Bytes -> Option<G1Element>)
    : (ps: seq<(G1Element, Bytes)>)
    requires AllHaveAtomArgs(cs, 2) && KeysDecode(cs, fromBytes)
    ensures |ps| == |cs|
    ensures forall i :: 0 <= i < |cs| ==> ps[i] == (fromBytes(Arg(cs[i], 0)).value, Arg(cs[i], 1) + suffix)
  {
    seq(|cs|, i requires 0 <= i < |cs| => (fromBytes(Arg(cs[i], 0)).value, Arg(cs[i], 1) + suffix))
  }

  /** The list comprehension of pkm_pairs_for_conditions_dict over one
      opcode's conditions: G1Element.from_bytes raises on the first key
      that does not decode, otherwise the result is the signed pairs. */
  function KeyMessagePairs(cs: seq<ConditionVarPair>, suffix: Bytes, fromBytes: Bytes -> Option<G1Element>)
    : (r: Py<seq<(G1Element, Bytes)>>)
    requires AllHaveAtomArgs(cs, 2)
    ensures r.Return? <==> KeysDecode(cs, fromBytes)
    ensures r.Raise? ==> r.exc == PublicKeyError
    ensures r.Return? ==> r.value == SignedPairs(cs, suffix, fromBytes)
    decreases |cs|
  {
    if |cs| == 0 then Return([])
    else
      match fromBytes(Arg(cs[0], 0))
      case None => Raise(PublicKeyError)
      case Some(key) =>
        assert forall i :: 1 <= i < |cs| ==> cs[1..][i - 1] == cs[i];
        match KeyMessagePairs(cs[1..], suffix, fromBytes)
        case Raise(e) => Raise(e)
        case Return(ps) =>
          SignedPairsCons(cs, suffix, fromBytes);
          Return([(key, Arg(cs[0], 1) + suffix)] + ps)
  }

  lemma SignedPairsCons(cs: seq<ConditionVarPair>, suffix: Bytes, fromBytes: Bytes -> Option<G1Element>)
    requires |cs| > 0 && AllHaveAtomArgs(cs, 2) && KeysDecode(cs, fromBytes)
    ensures AllHaveAtomArgs(cs[1..], 2) && KeysDecode(cs[1..], fromBytes)
    ensures SignedPairs(cs, suffix, fromBytes)
      == [(fromBytes(Arg(cs[0], 0)).value, Arg(cs[0], 1) + suffix)] + SignedPairs(cs[1..], suffix, fromBytes)
  {
    var rest := cs[1..];
    assert forall i :: 0 <= i < |rest| ==> rest[i] == cs[i + 1];
    var whole := SignedPairs(cs, suffix, fromBytes);
    var tail := SignedPairs(rest, suffix, fromBytes);
    assert forall i :: 1 <= i < |whole| ==> whole[i] == tail[i - 1];
  }

  /** pkm_pairs_for_conditions_dict: the AGG_SIG pairs with their message as
      is, then, only when a coin name is given, the AGG_SIG_ME pairs with
      the coin name appended to their message. */
  function PkmPairsForConditionsDict(
    conditionsDict: ConditionsDict,
    coinName: Option<Bytes>,
    fromBytes: Bytes -> Option<G1Element>
  ): (r: Py<seq<(G1Element, Bytes)>>)
    requires AllHaveAtomArgs(Get(conditionsDict, AggSig, []), 2)
    requires coinName.Some? ==> AllHaveAtomArgs(Get(conditionsDict, AggSigMe, []), 2)
    ensures r.Raise? ==> r.exc == PublicKeyError
    ensures r.Return? <==>
      && KeysDecode(Get(conditionsDict, AggSig, []), fromBytes)
      && (coinName.Some? ==> KeysDecode(Get(conditionsDict, AggSigMe, []), fromBytes))
    ensures r.Return? ==>
      r.value == SignedPairs(Get(conditionsDict, AggSig, []), [], fromBytes)
                 + (if coinName.Some? then SignedPairs(Get(conditionsDict, AggSigMe, []), coinName.value, fromBytes) else [])
  {
    var plain := KeyMessagePairs(Get(conditionsDict, AggSig, []), [], fromBytes);
    if plain.Raise? then plain
    else if coinName.None? then
      assert plain.value + [] == plain.value;
      plain
    else
      var bound := KeyMessagePairs(Get(conditionsDict, AggSigMe, []), coinName.value, fromBytes);
      if bound.Raise? then bound
      else Return(plain.value + bound.value)
  }

  /** aggsig_in_conditions_dict: a copy of the AGG_SIG list. */
  function AggsigInConditionsDict(conditionsDict: ConditionsDict): seq<ConditionVarPair> {
    Get(conditionsDict, AggSig, [])
  }

  /** One Coin(parent, vars[0], int_from_bytes(vars[1])) per condition, in order. */
  function NewCoins(cs: seq<ConditionVarPair>, parent: Bytes, intFromBytes: Bytes -> int): (coins: seq<Coin>)
    requires AllHaveAtomArgs(cs, 2)
    ensures |coins| == |cs|
    ensures forall i :: 0 <= i < |cs| ==>
      coins[i] == Coin(parent, Arg(cs[i], 0), intFromBytes(Arg(cs[i], 1)))
    decreases |cs|
  {
    if |cs| == 0 then []
    else
      assert forall i :: 1 <= i < |cs| ==> cs[1..][i - 1] == cs[i];
      [Coin(parent, Arg(cs[0], 0), intFromBytes(Arg(cs[0], 1)))] + NewCoins(cs[1..], parent, intFromBytes)
  }

  /** created_outputs_for_conditions_dict: the coins the CREATE_COIN
      conditions make, children of the spent coin. */
  function CreatedOutputsForConditionsDict(
    conditionsDict: ConditionsDict,
    inputCoinName: Bytes,
    intFromBytes: Bytes -> int
  ): (coins: seq<Coin>)
    requires AllHaveAtomArgs(Get(conditionsDict, CreateCoin, []), 2)
    ensures var created := Get(conditionsDict, CreateCoin, []);
      && |coins| == |created|
      && forall i :: 0 <= i < |created| ==>
           coins[i] == Coin(inputCoinName, Arg(created[i], 0), intFromBytes(Arg(created[i], 1)))
  {
    NewCoins(Get(conditionsDict, CreateCoin, []), inputCoinName, intFromBytes)
  }

  /** One Announcement(origin, vars[0]) per condition, in order. */
  function AnnouncementsOf(cs: seq<ConditionVarPair>, origin: Bytes): (anns: seq<Announcement>)
    requires AllHaveAtomArgs(cs, 1)
    ensures |anns| == |cs|
    ensures forall i :: 0 <= i < |cs| ==> anns[i] == Announcement(origin, Arg(cs[i], 0))
    decreases |cs|
  {
    if |cs| == 0 then []
    else
      assert forall i :: 1 <= i < |cs| ==> cs[1..][i - 1] == cs[i];
      [Announcement(origin, Arg(cs[0], 0))] + AnnouncementsOf(cs[1..], origin)
  }

  /** `[an.name() for an in anns]`. */
  function Names(anns: seq<Announcement>, announcementName: Announcement -> Bytes): (names: seq<Bytes>)
    ensures |names| == |anns|
    ensures forall i :: 0 <= i < |anns| ==> names[i] == announcementName(anns[i])
    decreases |anns|
  {
    if |anns| == 0 then []
    else
      assert forall i :: 1 <= i < |anns| ==> anns[1..][i - 1] == anns[i];
      [announcementName(anns[0])] + Names(anns[1..], announcementName)
  }

  /** coin_announcements_for_conditions_dict: the CREATE_ANNOUNCEMENT_WITH_ID
      messages, scoped to the spent coin's name. */
  function CoinAnnouncementsForConditionsDict(
    conditionsDict: ConditionsDict,
    inputCoin: Coin,
    coinName: Coin -> Bytes
  ): (anns: seq<Announcement>)
    requires AllHaveAtomArgs(Get(conditionsDict, CreateAnnouncementWithId, []), 1)
    ensures var made := Get(conditionsDict, CreateAnnouncementWithId, []);
      && |anns| == |made|
      && forall i :: 0 <= i < |made| ==> anns[i] == Announcement(coinName(inputCoin), Arg(made[i], 0))
  {
    AnnouncementsOf(Get(conditionsDict, CreateAnnouncementWithId, []), coinName(inputCoin))
  }

  /** puzzle_announcements_for_conditions_dict: the
      CREATE_ANNOUNCEMENT_WITH_PUZZLEHASH messages, scoped to the spent
      coin's puzzle hash. */
  function PuzzleAnnouncementsForConditionsDict(
    conditionsDict: ConditionsDict,
    inputCoin: Coin
  ): (anns: seq<Announcement>)
    requires AllHaveAtomArgs(Get(conditionsDict, CreateAnnouncementWithPuzzleHash, []), 1)
    ensures var made := Get(conditionsDict, CreateAnnouncementWithPuzzleHash, []);
      && |anns| == |made|
      && forall i :: 0 <= i < |made| ==> anns[i] == Announcement(inputCoin.puzzleHash, Arg(made[i], 0))
  {
    AnnouncementsOf(Get(conditionsDict, CreateAnnouncementWithPuzzleHash, []), inputCoin.puzzleHash)
  }

  /** coin_announcement_names_for_conditions_dict. */
  function CoinAnnouncementNamesForConditionsDict(
    conditionsDict: ConditionsDict,
    inputCoin: Coin,
    coinName: Coin -> Bytes,
    announcementName: Announcement -> Bytes
  ): (names: seq<Bytes>)
    requires AllHaveAtomArgs(Get(conditionsDict, CreateAnnouncementWithId, []), 1)
    ensures var anns := CoinAnnouncementsForConditionsDict(conditionsDict, inputCoin, coinName);
      && |names| == |anns|
      && forall i :: 0 <= i < |anns| ==> names[i] == announcementName(anns[i])
  {
    Names(CoinAnnouncementsForConditionsDict(conditionsDict, inputCoin, coinName), announcementName)
  }

  /** puzzle_announcement_names_for_conditions_dict. */
  function PuzzleAnnouncementNamesForConditionsDict(
    conditionsDict: ConditionsDict,
    inputCoin: Coin,
    announcementName: Announcement -> Bytes
  ): (names: seq<Bytes>)
    requires AllHaveAtomArgs(Get(conditionsDict, CreateAnnouncementWithPuzzleHash, []), 1)
    ensures var anns := PuzzleAnnouncementsForConditionsDict(conditionsDict, inputCoin);
      && |names| == |anns|
      && forall i :: 0 <= i < |anns| ==> names[i] == announcementName(anns[i])
  {
    Names(PuzzleAnnouncementsForConditionsDict(conditionsDict, inputCoin), announcementName)
  }

  // ---------------------------------------------------- batch over NPCs

  /** Every list paired with `op` has a byte-string first argument throughout. */
  predicate PairsHaveMessages(pairs: seq<(Opcode, seq<ConditionVarPair>)>, op: Opcode) {
    forall p :: 0 <= p < |pairs| && pairs[p].0 == op ==> AllHaveAtomArgs(pairs[p].1, 1)
  }

  predicate NpcsHaveMessages(npcs: seq<NPC>, op: Opcode) {
    forall n :: 0 <= n < |npcs| ==> PairsHaveMessages(npcs[n].conditions, op)
  }

  /** One spend's share of a batch: for every pair whose opcode is `op`, in
      order, the names of the announcements of its list under `origin`. */
  function PairAnnouncementNames(
    pairs: seq<(Opcode, seq<ConditionVarPair>)>,
    op: Opcode,
    origin: Bytes,
    announcementName: Announcement -> Bytes
  ): seq<Bytes>
    requires PairsHaveMessages(pairs, op)
    decreases |pairs|
  {
    if |pairs| == 0 then []
    else
      (if pairs[0].0 == op then Names(AnnouncementsOf(pairs[0].1, origin), announcementName) else [])
      + PairAnnouncementNames(pairs[1..], op, origin, announcementName)
  }

  /** The loop shared by the two *_names_for_npc functions: NPCs in order,
      each scoped by `scope`. */
  function NpcAnnouncementNames(
    npcs: seq<NPC>,
    op: Opcode,
    scope: NPC -> Bytes,
    announcementName: Announcement -> Bytes
  ): seq<Bytes>
    requires NpcsHaveMessages(npcs, op)
    decreases |npcs|
  {
    if |npcs| == 0 then []
    else
      PairAnnouncementNames(npcs[0].conditions, op, scope(npcs[0]), announcementName)
      + NpcAnnouncementNames(npcs[1..], op, scope, announcementName)
  }

  /** A coin announcement's scope: the spending coin's name. */
  function CoinScope(npc: NPC): Bytes {
    npc.coinName
  }

  /** A puzzle announcement's scope: the spending coin's puzzle hash. */
  function PuzzleScope(npc: NPC): Bytes {
    npc.puzzleHash
  }

  /** coin_announcements_names_for_npc. */
  function CoinAnnouncementsNamesForNpc(npcs: seq<NPC>, announcementName: Announcement -> Bytes): seq<Bytes>
    requires NpcsHaveMessages(npcs, CreateAnnouncementWithId)
  {
    NpcAnnouncementNames(npcs, CreateAnnouncementWithId, CoinScope, announcementName)
  }

  /** puzzle_announcements_names_for_npc. */
  function PuzzleAnnouncementsNamesForNpc(npcs: seq<NPC>, announcementName: Announcement -> Bytes): seq<Bytes>
    requires NpcsHaveMessages(npcs, CreateAnnouncementWithPuzzleHash)
  {
    NpcAnnouncementNames(npcs, CreateAnnouncementWithPuzzleHash, PuzzleScope, announcementName)
  }

  // ---------------------------------------------------------- orchestrate

  /** The `(error, result, cost)` tuple the two solution functions return. */
  datatype Solution<+T> = Solution(error: Option<Err>, result: Option<T>, cost: uint64)

  /** conditions_for_solution, given what `run_with_cost` did. An EvalError,
      from the interpreter or from iterating its output, yields SEXP_ERROR
      at cost 0; a parse error keeps the interpreter's cost; any other
      exception propagates. */
  function ConditionsForSolution(run: RunResult, asIter: SExp -> Iteration, table: OpcodeTable)
    : (r: Py<Solution<seq<ConditionVarPair>>>)
    ensures run == RunRaised(EvalError) ==> r == Return(Solution(Some(SexpError), None, 0))
    ensures run.RunRaised? && run.exc != EvalError ==> r == Raise(run.exc)
    ensures r.Return? ==> (r.value.error.None? <==> r.value.result.Some?)
    ensures r.Return? && r.value.error == Some(SexpError) ==> r.value.cost == 0
    ensures r.Return? && r.value.error != Some(SexpError) ==> run.Ran? && r.value.cost == run.cost
    ensures r.Return? && r.value.result.Some? ==>
      run.Ran? && ParseSexpToConditions(run.output, asIter, table) == Ok(r.value.result.value)
    ensures run.Ran? && ParseSexpToConditions(run.output, asIter, table).Error? ==>
      r == Return(Solution(Some(InvalidCondition), None, run.cost))
    ensures run.Ran? && ParseSexpToConditions(run.output, asIter, table).Ok? ==>
      r == Return(Solution(None, Some(ParseSexpToConditions(run.output, asIter, table).value), run.cost))
    ensures run.Ran? && ParseSexpToConditions(run.output, asIter, table) == Raised(EvalError) ==>
      r == Return(Solution(Some(SexpError), None, 0))
    ensures run.Ran? && ParseSexpToConditions(run.output, asIter, table).Raised?
              && ParseSexpToConditions(run.output, asIter, table).exc != EvalError ==>
      r == Raise(ParseSexpToConditions(run.output, asIter, table).exc)
  {
    match run
    case RunRaised(e) =>
      if e == EvalError then Return(Solution(Some(SexpError), None, 0)) else Raise(e)
    case Ran(cost, output) =>
      match ParseSexpToConditions(output, asIter, table)
      case Ok(cs) => Return(Solution(None, Some(cs), cost))
      case Error(e) => Return(Solution(Some(e), None, cost))
      case Raised(e) =>
        if e == EvalError then Return(Solution(Some(SexpError), None, 0)) else Raise(e)
  }

  /** conditions_dict_for_solution: any error or missing result reports cost
      0; otherwise the parsed conditions grouped by opcode, at the
      interpreter's cost. */
  function ConditionsDictForSolution(run: RunResult, asIter: SExp -> Iteration, table: OpcodeTable)
    : (r: Py<Solution<ConditionsDict>>)
    ensures r.Return? && r.value.error.Some? ==> r.value.cost == 0 && r.value.result.None?
    ensures var s := ConditionsForSolution(run, asIter, table);
      && (s.Raise? <==> r.Raise?)
      && (s.Raise? ==> r.exc == s.exc)
      && (s.Return? && s.value.error.Some? ==> r == Return(Solution(s.value.error, None, 0)))
      && (s.Return? && s.value.error.None? ==>
            r == Return(Solution(None, Some(ConditionsByOpcode(s.value.result.value)), s.value.cost)))
  {
    match ConditionsForSolution(run, asIter, table)
    case Raise(e) => Raise(e)
    case Return(Solution(error, result, cost)) =>
      if error.Some? || result.None? then Return(Solution(error, None, 0))
      else Return(Solution(None, Some(ConditionsByOpcode(result.value)), cost))
  }
}

=== FILE: name_puzzle_condition.dfy ===
/**
 The per-spend bundle NPC (coin name, puzzle hash, the spend's conditions as
 (opcode, condition list) pairs) and its `condition_dict` view.
 */
module NamePuzzleCondition {
  import opened Types
  import opened OrderedDict

  datatype NPC = NPC(
    coinName: Bytes,
    puzzleHash: Bytes,
    conditions: seq<(Opcode, seq<ConditionVarPair>)>)

  /** The list carried by the last pair whose opcode is `op`, or [] if none is. */
  function LastListFor(pairs: seq<(Opcode, seq<ConditionVarPair>)>, op: Opcode): seq<ConditionVarPair> {
    if |pairs| == 0 then []
    else if pairs[|pairs| - 1].0 == op then pairs[|pairs| - 1].1
    else LastListFor(pairs[..|pairs| - 1], op)
  }

  /** The `for opcode, l in pairs: d[opcode] = l` loop, from an empty dict. */
  function AssignEach(pairs: seq<(Opcode, seq<ConditionVarPair>)>): (d: ConditionsDict)
    ensures DistinctKeys(d)
    decreases |pairs|
  {
    if |pairs| == 0 then []
    else
      var d := AssignEach(pairs[..|pairs| - 1]);
      SetKeepsDistinct(d, pairs[|pairs| - 1].0, pairs[|pairs| - 1].1);
      Set(d, pairs[|pairs| - 1].0, pairs[|pairs| - 1].1)
  }

  /** Some pair carries opcode `op`. */
  predicate PairFor(pairs: seq<(Opcode, seq<ConditionVarPair>)>, op: Opcode) {
    exists i :: 0 <= i < |pairs| && pairs[i].0 == op
  }

  lemma PairForSnoc(pairs: seq<(Opcode, seq<ConditionVarPair>)>, op: Opcode)
    requires |pairs| > 0
    ensures PairFor(pairs, op) <==> pairs[|pairs| - 1].0 == op || PairFor(pairs[..|pairs| - 1], op)
  {
    var prefix := pairs[..|pairs| - 1];
    if PairFor(pairs, op) && pairs[|pairs| - 1].0 != op {
      var i :| 0 <= i < |pairs| && pairs[i].0 == op;
      assert prefix[i] == pairs[i];
    }
    if PairFor(prefix, op) {
      var i :| 0 <= i < |prefix| && prefix[i].0 == op;
      assert pairs[i] == prefix[i];
    }
  }

  lemma {:induction false} AssignEachKeys(pairs: seq<(Opcode, seq<ConditionVarPair>)>, op: Opcode)
    ensures HasKey(AssignEach(pairs), op) <==> PairFor(pairs, op)
    decreases |pairs|
  {
    if |pairs| > 0 {
      var prefix := pairs[..|pairs| - 1];
      AssignEachKeys(prefix, op);
      SetHasKey(AssignEach(prefix), pairs[|pairs| - 1].0, pairs[|pairs| - 1].1, op);
      PairForSnoc(pairs, op);
    }
  }

  lemma {:induction false} AssignEachGet(pairs: seq<(Opcode, seq<ConditionVarPair>)>, op: Opcode)
    ensures Get(AssignEach(pairs), op, []) == LastListFor(pairs, op)
    decreases |pairs|
  {
    if |pairs| > 0 {
      var prefix := pairs[..|pairs| - 1];
      AssignEachGet(prefix, op);
      GetSet(AssignEach(prefix), pairs[|pairs| - 1].0, pairs[|pairs| - 1].1, op, []);
    }
  }

  /** NPC.condition_dict. */
  function ConditionDict(npc: NPC): ConditionsDict {
    AssignEach(npc.conditions)
  }

  /** The dict's keys are exactly the opcodes that occur in the pairs, each once. */
  lemma ConditionDictKeys(npc: NPC, op: Opcode)
    ensures HasKey(ConditionDict(npc), op) <==> PairFor(npc.conditions, op)
    ensures DistinctKeys(ConditionDict(npc))
  {
    AssignEachKeys(npc.conditions, op);
  }

  /** The last pair with a given opcode wins: earlier lists are overwritten. */
  lemma {:induction false} LastListForLastPair(pairs: seq<(Opcode, seq<ConditionVarPair>)>, i: nat)
    requires i < |pairs|
    requires forall j :: i < j < |pairs| ==> pairs[j].0 != pairs[i].0
    ensures LastListFor(pairs, pairs[i].0) == pairs[i].1
    decreases |pairs|
  {
    if i < |pairs| - 1 {
      var prefix := pairs[..|pairs| - 1];
      assert prefix[i] == pairs[i];
      LastListForLastPair(prefix, i);
    }
  }

  lemma ConditionDictLastWins(npc: NPC, i: nat)
    requires i < |npc.conditions|
    requires forall j :: i < j < |npc.conditions| ==> npc.conditions[j].0 != npc.conditions[i].0
    ensures Get(ConditionDict(npc), npc.conditions[i].0, []) == npc.conditions[i].1
  {
    AssignEachGet(npc.conditions, npc.conditions[i].0);
    LastListForLastPair(npc.conditions, i);
  }

  /** With pairwise distinct opcodes, every pair's list is found under its opcode. */
  lemma ConditionDictDistinct(npc: NPC, i: nat)
    requires DistinctKeys(npc.conditions)
    requires i < |npc.conditions|
    ensures Get(ConditionDict(npc), npc.conditions[i].0, []) == npc.conditions[i].1
  {
    ConditionDictLastWins(npc, i);
  }

  lemma ConditionDictEmpty(npc: NPC)
    requires npc.conditions == []
    ensures ConditionDict(npc) == []
  {
  }
}

=== FILE: ordered_dict.dfy ===
/**
 Python's insertion-ordered `dict`, as the sequence of its (key, value)
 entries in insertion order, with the three operations condition_tools.py uses:
 `d.get(k, default)`, `k in d` and `d[k] = v`.
 */
module OrderedDict {

  type Dict<K, V> = seq<(K, V)>

  /** The keys, in insertion order. */
  function Keys<K, V>(d: Dict<K, V>): (ks: seq<K>)
    ensures |ks| == |d|
    ensures forall i :: 0 <= i < |d| ==> ks[i] == d[i].0
  {
    if |d| == 0 then [] else [d[0].0] + Keys(d[1..])
  }

  /** `k in d`. */
  predicate HasKey<K(==), V>(d: Dict<K, V>, k: K) {
    k in Keys(d)
  }

  /** No key is stored twice, as in every Python dict. */
  predicate DistinctKeys<K(==), V>(d: Dict<K, V>) {
    forall i, j :: 0 <= i < j < |d| ==> d[i].0 != d[j].0
  }

  /** `d.get(k, default)`. */
  function Get<K(==), V>(d: Dict<K, V>, k: K, default: V): (v: V)
    ensures !HasKey(d, k) ==> v == default
    ensures DistinctKeys(d) ==> forall i :: 0 <= i < |d| && d[i].0 == k ==> v == d[i].1
  {
    if |d| == 0 then default
    else if d[0].0 == k then d[0].1
    else
      DistinctKeysTail(d);
      Get(d[1..], k, default)
  }

  /** Dropping the first entry keeps the keys distinct. */
  lemma DistinctKeysTail<K, V>(d: Dict<K, V>)
    requires |d| > 0
    ensures DistinctKeys(d) ==> DistinctKeys(d[1..])
  {
  }

  /** `d[k] = v`: an existing entry is overwritten where it stands, a new
      key is appended at the end. */
  function Set<K(==,!new), V(!new)>(d: Dict<K, V>, k: K, v: V): (r: Dict<K, V>)
    ensures HasKey(d, k) ==> Keys(r) == Keys(d)
    ensures !HasKey(d, k) ==> Keys(r) == Keys(d) + [k]
  {
    if |d| == 0 then [(k, v)]
    else if d[0].0 == k then
      var r := [(k, v)] + d[1..];
      assert r[1..] == d[1..];
      r
    else
      var rest := Set(d[1..], k, v);
      var r := [d[0]] + rest;
      assert r[1..] == rest;
      assert Keys(r) == [d[0].0] + Keys(rest);
      assert HasKey(d, k) <==> HasKey(d[1..], k);
      r
  }

  /** After `d[k] = v`, k looks up as v and every other key as before. */
  lemma {:induction false} GetSet<K(!new), V(!new)>(d: Dict<K, V>, k: K, v: V, x: K, dflt: V)
    ensures Get(Set(d, k, v), x, dflt) == if x == k then v else Get(d, x, dflt)
    decreases |d|
  {
    if |d| > 0 && d[0].0 != k {
      GetSet(d[1..], k, v, x, dflt);
    }
  }

  lemma GetSetAll<K(!new), V(!new)>(d: Dict<K, V>, k: K, v: V)
    ensures forall x, dflt :: Get(Set(d, k, v), x, dflt) == if x == k then v else Get(d, x, dflt)
  {
    forall x, dflt
      ensures Get(Set(d, k, v), x, dflt) == if x == k then v else Get(d, x, dflt)
    {
      GetSet(d, k, v, x, dflt);
    }
  }

  /** After `d[k] = v`, the keys are d's and k. */
  lemma SetHasKey<K(!new), V(!new)>(d: Dict<K, V>, k: K, v: V, x: K)
    ensures HasKey(Set(d, k, v), x) <==> x == k || HasKey(d, x)
  {
    if !HasKey(d, k) {
      assert Keys(Set(d, k, v)) == Keys(d) + [k];
    }
  }

  /** `d[k] = v` stores no key twice. */
  lemma SetKeepsDistinct<K(!new), V(!new)>(d: Dict<K, V>, k: K, v: V)
    requires DistinctKeys(d)
    ensures DistinctKeys(Set(d, k, v))
  {
    var r := Set(d, k, v);
    forall i, j | 0 <= i < j < |r|
      ensures r[i].0 != r[j].0
    {
      assert r[i].0 == Keys(r)[i] && r[j].0 == Keys(r)[j];
      if j < |d| {
        assert Keys(r)[i] == Keys(d)[i] && Keys(r)[j] == Keys(d)[j];
      } else {
        assert Keys(r)[i] == Keys(d)[i] && Keys(d)[i] in Keys(d);
      }
    }
  }

  /** The values concatenated in key order. */
  function Flatten<K, V>(d: Dict<K, seq<V>>): seq<V> {
    if |d| == 0 then [] else d[0].1 + Flatten(d[1..])
  }

  lemma {:induction false} FlattenConcat<K, V>(a: Dict<K, seq<V>>, b: Dict<K, seq<V>>)
    ensures Flatten(a + b) == Flatten(a) + Flatten(b)
    decreases |a|
  {
    if |a| == 0 {
      assert a + b == b;
    } else {
      assert (a + b)[1..] == a[1..] + b;
      FlattenConcat(a[1..], b);
    }
  }

  /** Overwriting the value of k swaps k's old value for the new one in the
      flattened contents, and adding a key adds its value. */
  lemma {:induction false} FlattenSet<K(!new), V(!new)>(d: Dict<K, seq<V>>, k: K, v: seq<V>)
    ensures HasKey(d, k) ==>
      multiset(Flatten(Set(d, k, v))) + multiset(Get(d, k, [])) == multiset(Flatten(d)) + multiset(v)
    ensures !HasKey(d, k) ==> multiset(Flatten(Set(d, k, v))) == multiset(Flatten(d)) + multiset(v)
    decreases |d|
  {
    if |d| == 0 {
      assert Set(d, k, v) == [(k, v)];
      assert Flatten([(k, v)]) == v + Flatten([(k, v)][1..]);
    } else if d[0].0 == k {
      var r := [(k, v)] + d[1..];
      assert r[1..] == d[1..];
      var fd := Flatten(d[1..]);
      assert Flatten(r) == v + fd;
      assert Flatten(d) == d[0].1 + fd;
      assert Get(d, k, []) == d[0].1;
      assert multiset(v + fd) + multiset(d[0].1) == multiset(d[0].1 + fd) + multiset(v);
    } else {
      FlattenSet(d[1..], k, v);
      FlattenSetPastHead(d, k, v);
    }
  }

  /** The step of FlattenSet past a head entry whose key is not k. */
  lemma FlattenSetPastHead<K(!new), V(!new)>(d: Dict<K, seq<V>>, k: K, v: seq<V>)
    requires |d| > 0 && d[0].0 != k
    requires HasKey(d[1..], k) ==>
      multiset(Flatten(Set(d[1..], k, v))) + multiset(Get(d[1..], k, [])) == multiset(Flatten(d[1..])) + multiset(v)
    requires !HasKey(d[1..], k) ==> multiset(Flatten(Set(d[1..], k, v))) == multiset(Flatten(d[1..])) + multiset(v)
    ensures HasKey(d, k) ==>
      multiset(Flatten(Set(d, k, v))) + multiset(Get(d, k, [])) == multiset(Flatten(d)) + multiset(v)
    ensures !HasKey(d, k) ==> multiset(Flatten(Set(d, k, v))) == multiset(Flatten(d)) + multiset(v)
  {
    SetPastHead(d, k, v);
    var r := Set(d, k, v);
    FlattenHead(d);
    FlattenHead(r);
    var m0 := multiset(d[0].1);
    var fr := multiset(Flatten(Set(d[1..], k, v)));
    var fd := multiset(Flatten(d[1..]));
    if HasKey(d, k) {
      MultisetShift(m0, fr, fd, multiset(Get(d[1..], k, [])), multiset(v));
    } else {
      MultisetShift(m0, fr, fd, multiset{}, multiset(v));
    }
  }

  lemma FlattenHead<K, V>(d: Dict<K, seq<V>>)
    requires |d| > 0
    ensures multiset(Flatten(d)) == multiset(d[0].1) + multiset(Flatten(d[1..]))
  {
  }

  lemma MultisetShift<T>(m0: multiset<T>, fr: multiset<T>, fd: multiset<T>, g: multiset<T>, v: multiset<T>)
    requires fr + g == fd + v
    ensures (m0 + fr) + g == (m0 + fd) + v
  {
    assert (m0 + fr) + g == m0 + (fr + g);
  }

  lemma MultisetRearrange<T>(x: multiset<T>, y: multiset<T>, z: multiset<T>)
    ensures x + (y + z) == (x + z) + y
  {
  }

  lemma MultisetCancel<T>(a: multiset<T>, b: multiset<T>, x: multiset<T>)
    requires a + x == b + x
    ensures a == b
  {
    assert forall y :: a[y] == (a + x)[y] - x[y];
  }

  /** Past a head entry whose key is not k, `d[k] = v` and `d.get(k)` act on the rest. */
  lemma SetPastHead<K(!new), V(!new)>(d: Dict<K, V>, k: K, v: V)
    requires |d| > 0 && d[0].0 != k
    ensures Set(d, k, v) == [d[0]] + Set(d[1..], k, v)
    ensures ([d[0]] + Set(d[1..], k, v))[1..] == Set(d[1..], k, v)
    ensures HasKey(d, k) <==> HasKey(d[1..], k)
    ensures forall dflt :: Get(d, k, dflt) == Get(d[1..], k, dflt)
  {
    assert ([d[0]] + Set(d[1..], k, v))[1..] == Set(d[1..], k, v);
  }

  /** Looking past the last entry of `d + [e]` only when the key is not already in d. */
  lemma {:induction false} GetSnoc<K, V>(d: Dict<K, V>, e: (K, V), x: K, dflt: V)
    ensures Get(d + [e], x, dflt) == if HasKey(d, x) then Get(d, x, dflt) else if e.0 == x then e.1 else dflt
    decreases |d|
  {
    if |d| == 0 {
      assert d + [e] == [e];
    } else {
      assert (d + [e])[1..] == d[1..] + [e];
      if d[0].0 != x {
        GetSnoc(d[1..], e, x, dflt);
      }
    }
  }

  lemma KeysSnoc<K, V>(d: Dict<K, V>, e: (K, V))
    ensures Keys(d + [e]) == Keys(d) + [e.0]
  {
  }

  /** A dict is determined by its key order and the value it stores under each key. */
  lemma {:induction false} Extensionality<K, V>(d: Dict<K, V>, e: Dict<K, V>, dflt: V)
    requires DistinctKeys(d) && DistinctKeys(e)
    requires Keys(d) == Keys(e)
    requires forall x :: HasKey(d, x) ==> Get(d, x, dflt) == Get(e, x, dflt)
    ensures d == e
  {
    assert |d| == |e|;
    forall i | 0 <= i < |d|
      ensures d[i] == e[i]
    {
      assert d[i].0 == Keys(d)[i] == e[i].0;
      assert HasKey(d, d[i].0);
    }
  }
}

=== FILE: parsing.dfy ===
/**
 Properties of the parsers: a well-shaped node round-trips, the opcode
 table never decides success, and a condition list either parses whole or
 fails with the first failing node's outcome.
 */
module Parsing {
  import opened Types
  import opened ConditionTools

  /** The node a condition with opcode bytes `op` and arguments `args` is written as. */
  function ConditionNode(op: Bytes, args: seq<SExp>): SExp {
    List([Atom(op)] + args)
  }

  /** A node written from one or two arguments parses back to exactly them. */
  lemma ParseConditionRoundTrip(op: Bytes, args: seq<SExp>, table: OpcodeTable)
    requires |args| == 1 || |args| == 2
    ensures ParseSexpToCondition(ConditionNode(op, args), table) == Ok(ConditionVarPair(OpcodeFor(table, op), args))
  {
    var items := ConditionNode(op, args).items;
    if |args| == 2 {
      assert [items[1], items[2]] == args;
    } else {
      assert [items[1]] == args;
    }
  }

  /** With three or more arguments only the first survives. */
  lemma ParseConditionDropsLaterArgs(op: Bytes, args: seq<SExp>, table: OpcodeTable)
    requires |args| >= 3
    ensures ParseSexpToCondition(ConditionNode(op, args), table) == Ok(ConditionVarPair(OpcodeFor(table, op), [args[0]]))
  {
    assert ConditionNode(op, args).items[1] == args[0];
  }

  /** The opcode table only names the opcode: whether a node parses, and
      into which arguments, is the same under any table, and a byte string
      the table does not know becomes UNKNOWN. */
  lemma OpcodeTableNeverDecides(sexp: SExp, table: OpcodeTable, other: OpcodeTable)
    ensures ParseSexpToCondition(sexp, table).Ok? == ParseSexpToCondition(sexp, other).Ok?
    ensures ParseSexpToCondition(sexp, table).Ok? ==>
      ParseSexpToCondition(sexp, table).value.vars == ParseSexpToCondition(sexp, other).value.vars
    ensures !ParseSexpToCondition(sexp, table).Ok? ==> ParseSexpToCondition(sexp, table) == ParseSexpToCondition(sexp, other)
    ensures ParseSexpToCondition(sexp, table).Ok? && table(sexp.items[0].bytes).None? ==>
      ParseSexpToCondition(sexp, table).value.opcode == Unknown
  {
  }

  /** The list parser returns the outcome of the first node that does not
      parse, whatever follows it. */
  lemma {:induction false} ParseEachStopsAtFirstFailure(nodes: seq<SExp>, stop: Stop, table: OpcodeTable, k: nat)
    requires k < |nodes|
    requires forall j :: 0 <= j < k ==> ParseSexpToCondition(nodes[j], table).Ok?
    requires !ParseSexpToCondition(nodes[k], table).Ok?
    ensures var failed := ParseSexpToCondition(nodes[k], table);
      ParseEach(nodes, stop, table) == if failed.Error? then Error(failed.err) else Raised(failed.exc)
    decreases k
  {
    if k > 0 {
      assert forall j :: 0 <= j < k - 1 ==> nodes[1..][j] == nodes[j + 1];
      ParseEachStopsAtFirstFailure(nodes[1..], stop, table, k - 1);
    }
  }

  /** When every node parses, the way the iteration ended decides: an
      interrupted iteration yields its exception, whatever it is. */
  lemma {:induction false} ParseEachReachesStop(nodes: seq<SExp>, stop: Stop, table: OpcodeTable)
    requires forall j :: 0 <= j < |nodes| ==> ParseSexpToCondition(nodes[j], table).Ok?
    requires stop.Interrupted?
    ensures ParseEach(nodes, stop, table) == Raised(stop.exc)
    decreases |nodes|
  {
    if |nodes| > 0 {
      assert forall j :: 0 <= j < |nodes| - 1 ==> nodes[1..][j] == nodes[j + 1];
      ParseEachReachesStop(nodes[1..], stop, table);
    }
  }

  /** At the level of parse_sexp_to_conditions, an iteration ConsensusError
      becomes INVALID_CONDITION and any other exception propagates. */
  lemma ParseSexpToConditionsInterrupted(sexp: SExp, asIter: SExp -> Iteration, table: OpcodeTable)
    requires forall j :: 0 <= j < |asIter(sexp).yielded| ==> ParseSexpToCondition(asIter(sexp).yielded[j], table).Ok?
    requires asIter(sexp).stop.Interrupted?
    ensures ParseSexpToConditions(sexp, asIter, table) ==
      if asIter(sexp).stop.exc == ConsensusError then Error(InvalidCondition) else Raised(asIter(sexp).stop.exc)
  {
    ParseEachReachesStop(asIter(sexp).yielded, asIter(sexp).stop, table);
  }
}

=== FILE: projections.dfy ===
/**
 Properties of the projections: what they return for a classified condition
 list, how AGG_SIG_ME binds its message to the coin, how the batch
 announcement functions relate to the per-spend ones, and two end-to-end
 runs.
 */
module Projections {
  import opened Types
  import opened OrderedDict
  import opened NamePuzzleCondition
  import opened ConditionTools
  import opened Classification

  // ------------------------------------------------------ per-dict views

  /** aggsig_in_conditions_dict of a classified list is exactly its AGG_SIG
      conditions, in order. */
  lemma AggsigOfClassified(cs: seq<ConditionVarPair>)
    ensures AggsigInConditionsDict(ConditionsByOpcode(cs)) == WithOpcode(cs, AggSig)
    ensures Homogeneous(AggsigInConditionsDict(ConditionsByOpcode(cs)), AggSig)
  {
    ConditionsByOpcodeGroups(cs);
    WithOpcodeSelects(cs, AggSig);
  }

  /** From a classified list, one coin per CREATE_COIN condition in source
      order, duplicates kept, each a child of the spent coin. */
  lemma CreatedOutputsOfClassified(cs: seq<ConditionVarPair>, parent: Bytes, intFromBytes: Bytes -> int)
    requires AllHaveAtomArgs(WithOpcode(cs, CreateCoin), 2)
    ensures Get(ConditionsByOpcode(cs), CreateCoin, []) == WithOpcode(cs, CreateCoin)
    ensures var coins := CreatedOutputsForConditionsDict(ConditionsByOpcode(cs), parent, intFromBytes);
      var created := WithOpcode(cs, CreateCoin);
      && |coins| == |created|
      && forall i :: 0 <= i < |created| ==>
           coins[i] == Coin(parent, Arg(created[i], 0), intFromBytes(Arg(created[i], 1)))
  {
    ConditionsByOpcodeGroups(cs);
  }

  /** The pairs of a classified list: its AGG_SIG conditions, then, given a
      coin name, its AGG_SIG_ME ones. */
  lemma PkmPairsOfClassified(cs: seq<ConditionVarPair>, coinName: Option<Bytes>, fromBytes: Bytes -> Option<G1Element>)
    requires AllHaveAtomArgs(WithOpcode(cs, AggSig), 2)
    requires coinName.Some? ==> AllHaveAtomArgs(WithOpcode(cs, AggSigMe), 2)
    ensures Get(ConditionsByOpcode(cs), AggSig, []) == WithOpcode(cs, AggSig)
    ensures Get(ConditionsByOpcode(cs), AggSigMe, []) == WithOpcode(cs, AggSigMe)
    ensures var r := PkmPairsForConditionsDict(ConditionsByOpcode(cs), coinName, fromBytes);
      r.Return? ==>
        |r.value| == |WithOpcode(cs, AggSig)| + if coinName.Some? then |WithOpcode(cs, AggSigMe)| else 0
  {
    ConditionsByOpcodeGroups(cs);
  }

  // ------------------------------------------------------- AGG_SIG_ME

  /** An AGG_SIG pair signs the condition's message exactly as written. */
  lemma AggSigSignsRawMessage(d: ConditionsDict, coinName: Option<Bytes>, fromBytes: Bytes -> Option<G1Element>, i: nat)
    requires AllHaveAtomArgs(Get(d, AggSig, []), 2)
    requires coinName.Some? ==> AllHaveAtomArgs(Get(d, AggSigMe, []), 2)
    requires PkmPairsForConditionsDict(d, coinName, fromBytes).Return?
    requires i < |Get(d, AggSig, [])|
    ensures var c := Get(d, AggSig, [])[i];
      PkmPairsForConditionsDict(d, coinName, fromBytes).value[i] == (fromBytes(Arg(c, 0)).value, Arg(c, 1))
  {
    var c := Get(d, AggSig, [])[i];
    var plain := SignedPairs(Get(d, AggSig, []), [], fromBytes);
    assert PkmPairsForConditionsDict(d, coinName, fromBytes).value[i] == plain[i];
    assert Arg(c, 1) + [] == Arg(c, 1);
  }

  /** An AGG_SIG_ME pair signs its raw message followed by the coin name,
      so under a non-empty coin name it never signs the raw message itself,
      which is what AGG_SIG would sign for the same arguments. */
  lemma AggSigMeBindsCoin(d: ConditionsDict, coinName: Bytes, fromBytes: Bytes -> Option<G1Element>, i: nat)
    requires AllHaveAtomArgs(Get(d, AggSig, []), 2) && AllHaveAtomArgs(Get(d, AggSigMe, []), 2)
    requires PkmPairsForConditionsDict(d, Some(coinName), fromBytes).Return?
    requires i < |Get(d, AggSigMe, [])|
    ensures var pairs := PkmPairsForConditionsDict(d, Some(coinName), fromBytes).value;
      var c := Get(d, AggSigMe, [])[i];
      var raw := Arg(c, 1);
      var pair := pairs[|Get(d, AggSig, [])| + i];
      && pair.0 == fromBytes(Arg(c, 0)).value
      && pair.1[..|raw|] == raw
      && pair.1[|raw|..] == coinName
      && (|coinName| > 0 ==> pair.1 != raw)
  {
    var c := Get(d, AggSigMe, [])[i];
    var raw := Arg(c, 1);
    AggSigMePairAt(d, coinName, fromBytes, i);
    AppendParts(raw, coinName);
  }

  /** The AGG_SIG_ME pairs follow the AGG_SIG ones, each with the coin name appended. */
  lemma AggSigMePairAt(d: ConditionsDict, coinName: Bytes, fromBytes: Bytes -> Option<G1Element>, i: nat)
    requires AllHaveAtomArgs(Get(d, AggSig, []), 2) && AllHaveAtomArgs(Get(d, AggSigMe, []), 2)
    requires PkmPairsForConditionsDict(d, Some(coinName), fromBytes).Return?
    requires i < |Get(d, AggSigMe, [])|
    ensures |Get(d, AggSig, [])| + i < |PkmPairsForConditionsDict(d, Some(coinName), fromBytes).value|
    ensures var c := Get(d, AggSigMe, [])[i];
      PkmPairsForConditionsDict(d, Some(coinName), fromBytes).value[|Get(d, AggSig, [])| + i]
        == (fromBytes(Arg(c, 0)).value, Arg(c, 1) + coinName)
  {
    var r := PkmPairsForConditionsDict(d, Some(coinName), fromBytes);
    var plain := SignedPairs(Get(d, AggSig, []), [], fromBytes);
    var bound := SignedPairs(Get(d, AggSigMe, []), coinName, fromBytes);
    var c := Get(d, AggSigMe, [])[i];
    assert r.value == plain + bound;
    assert |plain| == |Get(d, AggSig, [])|;
    assert (plain + bound)[|plain| + i] == bound[i];
    assert bound[i] == (fromBytes(Arg(c, 0)).value, Arg(c, 1) + coinName);
  }

  lemma AppendParts(a: Bytes, b: Bytes)
    ensures (a + b)[..|a|] == a && (a + b)[|a|..] == b
    ensures |b| > 0 ==> a + b != a
  {
    assert |a + b| == |a| + |b|;
  }

  /** Two coins with distinct names of equal width never share an AGG_SIG_ME
      message: a signature for one spend does not replay on another. */
  lemma AggSigMeMessagesDifferAcrossCoins(
    d: ConditionsDict, c1: Bytes, c2: Bytes, fromBytes: Bytes -> Option<G1Element>, i: nat)
    requires AllHaveAtomArgs(Get(d, AggSig, []), 2) && AllHaveAtomArgs(Get(d, AggSigMe, []), 2)
    requires PkmPairsForConditionsDict(d, Some(c1), fromBytes).Return?
    requires PkmPairsForConditionsDict(d, Some(c2), fromBytes).Return?
    requires |c1| == |c2| && c1 != c2
    requires i < |Get(d, AggSigMe, [])|
    ensures var n := |Get(d, AggSig, [])|;
      PkmPairsForConditionsDict(d, Some(c1), fromBytes).value[n + i].1
        != PkmPairsForConditionsDict(d, Some(c2), fromBytes).value[n + i].1
  {
    var raw := Arg(Get(d, AggSigMe, [])[i], 1);
    AggSigMePairAt(d, c1, fromBytes, i);
    AggSigMePairAt(d, c2, fromBytes, i);
    var n := |Get(d, AggSig, [])|;
    var m1 := PkmPairsForConditionsDict(d, Some(c1), fromBytes).value[n + i].1;
    var m2 := PkmPairsForConditionsDict(d, Some(c2), fromBytes).value[n + i].1;
    AppendParts(raw, c1);
    AppendParts(raw, c2);
    assert m1[|raw|..] == c1 && m2[|raw|..] == c2;
  }

  /** Without a coin name the AGG_SIG_ME conditions are ignored: the pairs
      are exactly the AGG_SIG ones. */
  lemma PkmPairsWithoutCoinName(d: ConditionsDict, fromBytes: Bytes -> Option<G1Element>)
    requires AllHaveAtomArgs(Get(d, AggSig, []), 2)
    ensures var r := PkmPairsForConditionsDict(d, None, fromBytes);
      && (r.Return? <==> KeysDecode(Get(d, AggSig, []), fromBytes))
      && (r.Return? ==> |r.value| == |Get(d, AggSig, [])|)
  {
  }

  // -------------------------------------------------------- announcements

  /** Each announcement name is the name of the announcement of the spent
      coin's name and the condition's message. */
  lemma CoinAnnouncementNamesAreNamesOfMessages(
    d: ConditionsDict, coin: Coin, coinName: Coin -> Bytes, announcementName: Announcement -> Bytes)
    requires AllHaveAtomArgs(Get(d, CreateAnnouncementWithId, []), 1)
    ensures var made := Get(d, CreateAnnouncementWithId, []);
      var names := CoinAnnouncementNamesForConditionsDict(d, coin, coinName, announcementName);
      && |names| == |made|
      && forall i :: 0 <= i < |made| ==>
           names[i] == announcementName(Announcement(coinName(coin), Arg(made[i], 0)))
  {
  }

  lemma PuzzleAnnouncementNamesAreNamesOfMessages(
    d: ConditionsDict, coin: Coin, announcementName: Announcement -> Bytes)
    requires AllHaveAtomArgs(Get(d, CreateAnnouncementWithPuzzleHash, []), 1)
    ensures var made := Get(d, CreateAnnouncementWithPuzzleHash, []);
      var names := PuzzleAnnouncementNamesForConditionsDict(d, coin, announcementName);
      && |names| == |made|
      && forall i :: 0 <= i < |made| ==>
           names[i] == announcementName(Announcement(coin.puzzleHash, Arg(made[i], 0)))
  {
  }

  // ------------------------------------------------------------- batches

  /** A batch over a + b is the batch over a followed by the batch over b. */
  lemma {:induction false} NpcAnnouncementNamesConcat(
    a: seq<NPC>, b: seq<NPC>, op: Opcode, scope: NPC -> Bytes, announcementName: Announcement -> Bytes)
    requires NpcsHaveMessages(a, op) && NpcsHaveMessages(b, op)
    ensures NpcsHaveMessages(a + b, op)
    ensures NpcAnnouncementNames(a + b, op, scope, announcementName)
      == NpcAnnouncementNames(a, op, scope, announcementName) + NpcAnnouncementNames(b, op, scope, announcementName)
    decreases |a|
  {
    forall n | 0 <= n < |a + b|
      ensures PairsHaveMessages((a + b)[n].conditions, op)
    {
      if n < |a| {
        assert (a + b)[n] == a[n];
      } else {
        assert (a + b)[n] == b[n - |a|];
      }
    }
    if |a| == 0 {
      assert a + b == b;
    } else {
      var rest := a[1..];
      assert (a + b)[1..] == rest + b;
      assert (a + b)[0] == a[0];
      forall n | 0 <= n < |rest|
        ensures PairsHaveMessages(rest[n].conditions, op)
      {
        assert rest[n] == a[n + 1];
      }
      NpcAnnouncementNamesConcat(rest, b, op, scope, announcementName);
      var head := PairAnnouncementNames(a[0].conditions, op, scope(a[0]), announcementName);
      var ra := NpcAnnouncementNames(rest, op, scope, announcementName);
      var rb := NpcAnnouncementNames(b, op, scope, announcementName);
      assert NpcAnnouncementNames(a + b, op, scope, announcementName) == head + (ra + rb);
      assert NpcAnnouncementNames(a, op, scope, announcementName) == head + ra;
      assert head + (ra + rb) == (head + ra) + rb;
    }
  }

  /** One spend's share over p + q is its share over p followed by its share
      over q: every matching pair contributes, repeated opcodes included. */
  lemma {:induction false} PairNamesConcat(
    p: seq<(Opcode, seq<ConditionVarPair>)>, q: seq<(Opcode, seq<ConditionVarPair>)>,
    op: Opcode, origin: Bytes, announcementName: Announcement -> Bytes)
    requires PairsHaveMessages(p, op) && PairsHaveMessages(q, op)
    ensures PairsHaveMessages(p + q, op)
    ensures PairAnnouncementNames(p + q, op, origin, announcementName)
      == PairAnnouncementNames(p, op, origin, announcementName) + PairAnnouncementNames(q, op, origin, announcementName)
    decreases |p|
  {
    PairsHaveMessagesConcat(p, q, op);
    if |p| == 0 {
      assert p + q == q;
    } else {
      PairsHaveMessagesTail(p, op);
      PairNamesConcat(p[1..], q, op, origin, announcementName);
      PairNamesConcatStep(p, q, op, origin, announcementName);
    }
  }

  lemma PairsHaveMessagesConcat(p: seq<(Opcode, seq<ConditionVarPair>)>, q: seq<(Opcode, seq<ConditionVarPair>)>, op: Opcode)
    requires PairsHaveMessages(p, op) && PairsHaveMessages(q, op)
    ensures PairsHaveMessages(p + q, op)
  {
    forall n | 0 <= n < |p + q| && (p + q)[n].0 == op
      ensures AllHaveAtomArgs((p + q)[n].1, 1)
    {
      if n < |p| { assert (p + q)[n] == p[n]; } else { assert (p + q)[n] == q[n - |p|]; }
    }
  }

  lemma PairsHaveMessagesTail(p: seq<(Opcode, seq<ConditionVarPair>)>, op: Opcode)
    requires |p| > 0 && PairsHaveMessages(p, op)
    ensures PairsHaveMessages(p[1..], op)
  {
    forall n | 0 <= n < |p[1..]| && p[1..][n].0 == op
      ensures AllHaveAtomArgs(p[1..][n].1, 1)
    {
      assert p[1..][n] == p[n + 1];
    }
  }

  /** The step of PairNamesConcat past p's first pair. */
  lemma PairNamesConcatStep(
    p: seq<(Opcode, seq<ConditionVarPair>)>, q: seq<(Opcode, seq<ConditionVarPair>)>,
    op: Opcode, origin: Bytes, announcementName: Announcement -> Bytes)
    requires |p| > 0
    requires PairsHaveMessages(p, op) && PairsHaveMessages(q, op)
    requires PairsHaveMessages(p[1..], op) && PairsHaveMessages(p + q, op) && PairsHaveMessages(p[1..] + q, op)
    requires PairAnnouncementNames(p[1..] + q, op, origin, announcementName)
      == PairAnnouncementNames(p[1..], op, origin, announcementName) + PairAnnouncementNames(q, op, origin, announcementName)
    ensures PairAnnouncementNames(p + q, op, origin, announcementName)
      == PairAnnouncementNames(p, op, origin, announcementName) + PairAnnouncementNames(q, op, origin, announcementName)
  {
    assert (p + q)[1..] == p[1..] + q;
    assert (p + q)[0] == p[0];
    var head := PairNamesUnfold(p, op, origin, announcementName);
    var head' := PairNamesUnfold(p + q, op, origin, announcementName);
    ShareShift(PairAnnouncementNames(p + q, op, origin, announcementName),
      PairAnnouncementNames(p, op, origin, announcementName),
      PairAnnouncementNames(p[1..] + q, op, origin, announcementName),
      PairAnnouncementNames(p[1..], op, origin, announcementName),
      PairAnnouncementNames(q, op, origin, announcementName), head);
  }

  /** Sequence algebra behind PairNamesConcatStep. */
  lemma ShareShift(whole: seq<Bytes>, left: seq<Bytes>, wholeRest: seq<Bytes>, leftRest: seq<Bytes>, right: seq<Bytes>, head: seq<Bytes>)
    requires whole == head + wholeRest && left == head + leftRest && wholeRest == leftRest + right
    ensures whole == left + right
  {
    assert head + (leftRest + right) == (head + leftRest) + right;
  }

  /** The first pair's share of PairAnnouncementNames, returned as `head`. */
  lemma PairNamesUnfold(
    pairs: seq<(Opcode, seq<ConditionVarPair>)>, op: Opcode, origin: Bytes, announcementName: Announcement -> Bytes)
    returns (head: seq<Bytes>)
    requires |pairs| > 0 && PairsHaveMessages(pairs, op) && PairsHaveMessages(pairs[1..], op)
    ensures head == (if pairs[0].0 == op then Names(AnnouncementsOf(pairs[0].1, origin), announcementName) else [])
    ensures PairAnnouncementNames(pairs, op, origin, announcementName)
      == head + PairAnnouncementNames(pairs[1..], op, origin, announcementName)
  {
    head := if pairs[0].0 == op then Names(AnnouncementsOf(pairs[0].1, origin), announcementName) else [];
  }

  lemma {:induction false} PairNamesAbsent(
    pairs: seq<(Opcode, seq<ConditionVarPair>)>, op: Opcode, origin: Bytes, announcementName: Announcement -> Bytes)
    requires forall p :: 0 <= p < |pairs| ==> pairs[p].0 != op
    ensures PairAnnouncementNames(pairs, op, origin, announcementName) == []
    decreases |pairs|
  {
    if |pairs| > 0 {
      assert forall p :: 0 <= p < |pairs| - 1 ==> pairs[1..][p] == pairs[p + 1];
      PairNamesAbsent(pairs[1..], op, origin, announcementName);
    }
  }

  lemma {:induction false} PairNamesSingle(
    pairs: seq<(Opcode, seq<ConditionVarPair>)>, op: Opcode, origin: Bytes, announcementName: Announcement -> Bytes, i: nat)
    requires DistinctKeys(pairs)
    requires i < |pairs| && pairs[i].0 == op
    requires PairsHaveMessages(pairs, op)
    ensures PairAnnouncementNames(pairs, op, origin, announcementName)
      == Names(AnnouncementsOf(pairs[i].1, origin), announcementName)
    decreases |pairs|
  {
    var rest := pairs[1..];
    assert forall p :: 0 <= p < |rest| ==> rest[p] == pairs[p + 1];
    if i == 0 {
      PairNamesAbsent(rest, op, origin, announcementName);
    } else {
      PairNamesSingle(rest, op, origin, announcementName, i - 1);
    }
  }

  /** With pairwise distinct opcodes, a one-NPC batch equals the per-dict
      projection of the NPC's condition_dict. */
  lemma BatchMatchesConditionDict(
    npc: NPC, op: Opcode, origin: Bytes, announcementName: Announcement -> Bytes)
    requires DistinctKeys(npc.conditions)
    requires PairsHaveMessages(npc.conditions, op)
    ensures AllHaveAtomArgs(Get(ConditionDict(npc), op, []), 1)
    ensures PairAnnouncementNames(npc.conditions, op, origin, announcementName)
      == Names(AnnouncementsOf(Get(ConditionDict(npc), op, []), origin), announcementName)
  {
    ConditionDictKeys(npc, op);
    if i :| 0 <= i < |npc.conditions| && npc.conditions[i].0 == op {
      ConditionDictDistinct(npc, i);
      PairNamesSingle(npc.conditions, op, origin, announcementName, i);
    } else {
      PairNamesAbsent(npc.conditions, op, origin, announcementName);
    }
  }

  /** A one-NPC batch is that NPC's share under its scope. */
  lemma NpcAnnouncementNamesSingle(npc: NPC, op: Opcode, scope: NPC -> Bytes, announcementName: Announcement -> Bytes)
    requires PairsHaveMessages(npc.conditions, op)
    ensures NpcAnnouncementNames([npc], op, scope, announcementName)
      == PairAnnouncementNames(npc.conditions, op, scope(npc), announcementName)
  {
    assert [npc][1..] == [];
  }

  lemma CoinBatchMatchesConditionDict(
    npc: NPC, coin: Coin, coinName: Coin -> Bytes, announcementName: Announcement -> Bytes)
    requires DistinctKeys(npc.conditions)
    requires PairsHaveMessages(npc.conditions, CreateAnnouncementWithId)
    requires npc.coinName == coinName(coin)
    ensures AllHaveAtomArgs(Get(ConditionDict(npc), CreateAnnouncementWithId, []), 1)
    ensures CoinAnnouncementsNamesForNpc([npc], announcementName)
      == CoinAnnouncementNamesForConditionsDict(ConditionDict(npc), coin, coinName, announcementName)
  {
    BatchMatchesConditionDict(npc, CreateAnnouncementWithId, npc.coinName, announcementName);
    NpcAnnouncementNamesSingle(npc, CreateAnnouncementWithId, CoinScope, announcementName);
  }

  lemma PuzzleBatchMatchesConditionDict(
    npc: NPC, coin: Coin, announcementName: Announcement -> Bytes)
    requires DistinctKeys(npc.conditions)
    requires PairsHaveMessages(npc.conditions, CreateAnnouncementWithPuzzleHash)
    requires npc.puzzleHash == coin.puzzleHash
    ensures AllHaveAtomArgs(Get(ConditionDict(npc), CreateAnnouncementWithPuzzleHash, []), 1)
    ensures PuzzleAnnouncementsNamesForNpc([npc], announcementName)
      == PuzzleAnnouncementNamesForConditionsDict(ConditionDict(npc), coin, announcementName)
  {
    BatchMatchesConditionDict(npc, CreateAnnouncementWithPuzzleHash, npc.puzzleHash, announcementName);
    NpcAnnouncementNamesSingle(npc, CreateAnnouncementWithPuzzleHash, PuzzleScope, announcementName);
  }

  /** Two pairs with the same opcode both contribute to a batch, although
      condition_dict keeps only the second. */
  lemma BatchCountsRepeatedPairs(
    npc: NPC, l1: seq<ConditionVarPair>, l2: seq<ConditionVarPair>, announcementName: Announcement -> Bytes)
    requires npc.conditions == [(CreateAnnouncementWithId, l1), (CreateAnnouncementWithId, l2)]
    requires AllHaveAtomArgs(l1, 1) && AllHaveAtomArgs(l2, 1)
    ensures CoinAnnouncementsNamesForNpc([npc], announcementName)
      == Names(AnnouncementsOf(l1, npc.coinName), announcementName)
         + Names(AnnouncementsOf(l2, npc.coinName), announcementName)
    ensures Get(ConditionDict(npc), CreateAnnouncementWithId, []) == l2
  {
    var pairs := npc.conditions;
    var rest := pairs[1..];
    assert rest == [(CreateAnnouncementWithId, l2)];
    assert rest[1..] == [];
    var second := Names(AnnouncementsOf(l2, npc.coinName), announcementName);
    assert PairAnnouncementNames(rest[1..], CreateAnnouncementWithId, npc.coinName, announcementName) == [];
    assert PairAnnouncementNames(rest, CreateAnnouncementWithId, npc.coinName, announcementName) == second + [];
    assert second + [] == second;
    NpcAnnouncementNamesSingle(npc, CreateAnnouncementWithId, CoinScope, announcementName);
    ConditionDictLastWins(npc, 1);
  }

  // ----------------------------------------------------------- end to end

  /** An output of one condition node, fully iterated, parses into that one condition. */
  lemma ParseSingleNode(node: SExp, cvp: ConditionVarPair, asIter: SExp -> Iteration, table: OpcodeTable)
    requires asIter(List([node])) == Iteration([node], Exhausted)
    requires ParseSexpToCondition(node, table) == Ok(cvp)
    ensures ParseSexpToConditions(List([node]), asIter, table) == Ok([cvp])
  {
    var parsed := ParseSexpToConditions(List([node]), asIter, table);
    assert asIter(List([node])).yielded[0] == node;
    assert parsed.Ok? && parsed.value[0] == cvp;
    assert parsed.value == [cvp];
  }

  /** One condition classifies into a list holding just itself. */
  lemma ClassifySingle(cvp: ConditionVarPair)
    ensures Get(ConditionsByOpcode([cvp]), cvp.opcode, []) == [cvp]
  {
    ConditionsByOpcodeGroups([cvp]);
    assert [cvp][..0] == [];
    assert WithOpcode([cvp], cvp.opcode) == [] + [cvp];
  }

  /** A lone CREATE_COIN condition creates exactly one coin. */
  lemma CreatedOutputsOfSingle(cvp: ConditionVarPair, parent: Bytes, intFromBytes: Bytes -> int)
    requires cvp.opcode == CreateCoin && HasAtomArgs(cvp, 2)
    ensures AllHaveAtomArgs(Get(ConditionsByOpcode([cvp]), CreateCoin, []), 2)
    ensures CreatedOutputsForConditionsDict(ConditionsByOpcode([cvp]), parent, intFromBytes)
      == [Coin(parent, Arg(cvp, 0), intFromBytes(Arg(cvp, 1)))]
  {
    ClassifySingle(cvp);
    var coins := CreatedOutputsForConditionsDict(ConditionsByOpcode([cvp]), parent, intFromBytes);
    assert |coins| == 1;
  }

  /** A lone CREATE_ANNOUNCEMENT_WITH_ID condition announces exactly one name. */
  lemma CoinAnnouncementNamesOfSingle(
    cvp: ConditionVarPair, coin: Coin, coinName: Coin -> Bytes, announcementName: Announcement -> Bytes)
    requires cvp.opcode == CreateAnnouncementWithId && HasAtomArgs(cvp, 1)
    ensures AllHaveAtomArgs(Get(ConditionsByOpcode([cvp]), CreateAnnouncementWithId, []), 1)
    ensures CoinAnnouncementNamesForConditionsDict(ConditionsByOpcode([cvp]), coin, coinName, announcementName)
      == [announcementName(Announcement(coinName(coin), Arg(cvp, 0)))]
  {
    ClassifySingle(cvp);
    var names := CoinAnnouncementNamesForConditionsDict(ConditionsByOpcode([cvp]), coin, coinName, announcementName);
    assert |names| == 1;
  }

  /** A run whose output parses into `cs` yields the classification of `cs` at the run's cost. */
  lemma SolutionOfParsed(cost: uint64, output: SExp, asIter: SExp -> Iteration, table: OpcodeTable, cs: seq<ConditionVarPair>)
    requires ParseSexpToConditions(output, asIter, table) == Ok(cs)
    ensures ConditionsDictForSolution(Ran(cost, output), asIter, table)
      == Return(Solution(None, Some(ConditionsByOpcode(cs)), cost))
  {
  }

  /** A puzzle whose output is ((51 ph 100)) creates exactly the coin
      (P, ph, 100) when 51 is CREATE_COIN and 100 decodes to 100. */
  lemma EndToEndCreateCoin(
    ph: Bytes, parent: Bytes, cost: uint64,
    asIter: SExp -> Iteration, table: OpcodeTable, intFromBytes: Bytes -> int)
    requires table([51]) == Some(CreateCoin)
    requires intFromBytes([100]) == 100
    requires asIter(List([List([Atom([51]), Atom(ph), Atom([100])])]))
      == Iteration([List([Atom([51]), Atom(ph), Atom([100])])], Exhausted)
    ensures var r := ConditionsDictForSolution(
        Ran(cost, List([List([Atom([51]), Atom(ph), Atom([100])])])), asIter, table);
      && r.Return? && r.value.error.None? && r.value.result.Some? && r.value.cost == cost
      && AllHaveAtomArgs(Get(r.value.result.value, CreateCoin, []), 2)
      && CreatedOutputsForConditionsDict(r.value.result.value, parent, intFromBytes) == [Coin(parent, ph, 100)]
  {
    var node := List([Atom([51]), Atom(ph), Atom([100])]);
    var cvp := ConditionVarPair(CreateCoin, [Atom(ph), Atom([100])]);
    assert ParseSexpToCondition(node, table) == Ok(cvp);
    ParseSingleNode(node, cvp, asIter, table);
    SolutionOfParsed(cost, List([node]), asIter, table, [cvp]);
    CreatedOutputsOfSingle(cvp, parent, intFromBytes);
  }

  /** A puzzle whose output is ((60 msg)) for coin C announces exactly the
      name of Announcement(C.name(), msg) when 60 is
      CREATE_ANNOUNCEMENT_WITH_ID. */
  lemma EndToEndCoinAnnouncement(
    msg: Bytes, coin: Coin, cost: uint64,
    asIter: SExp -> Iteration, table: OpcodeTable,
    coinName: Coin -> Bytes, announcementName: Announcement -> Bytes)
    requires table([60]) == Some(CreateAnnouncementWithId)
    requires asIter(List([List([Atom([60]), Atom(msg)])])) == Iteration([List([Atom([60]), Atom(msg)])], Exhausted)
    ensures var r := ConditionsDictForSolution(Ran(cost, List([List([Atom([60]), Atom(msg)])])), asIter, table);
      && r.Return? && r.value.error.None? && r.value.result.Some?
      && AllHaveAtomArgs(Get(r.value.result.value, CreateAnnouncementWithId, []), 1)
      && CoinAnnouncementNamesForConditionsDict(r.value.result.value, coin, coinName, announcementName)
           == [announcementName(Announcement(coinName(coin), msg))]
  {
    var node := List([Atom([60]), Atom(msg)]);
    var cvp := ConditionVarPair(CreateAnnouncementWithId, [Atom(msg)]);
    assert ParseSexpToCondition(node, table) == Ok(cvp);
    ParseSingleNode(node, cvp, asIter, table);
    SolutionOfParsed(cost, List([node]), asIter, table, [cvp]);
    CoinAnnouncementNamesOfSingle(cvp, coin, coinName, announcementName);
  }

  /** An interpreter EvalError yields SEXP_ERROR at cost 0 from both solution functions. */
  lemma EvalErrorCostsNothing(asIter: SExp -> Iteration, table: OpcodeTable)
    ensures ConditionsForSolution(RunRaised(EvalError), asIter, table) == Return(Solution(Some(SexpError), None, 0))
    ensures ConditionsDictForSolution(RunRaised(EvalError), asIter, table) == Return(Solution(Some(SexpError), None, 0))
  {
  }

  /** On success the dict variant's lists are the parsed conditions grouped
      by opcode. */
  lemma SolutionDictGroupsParsedConditions(run: RunResult, asIter: SExp -> Iteration, table: OpcodeTable, op: Opcode)
    requires ConditionsDictForSolution(run, asIter, table).Return?
    requires ConditionsDictForSolution(run, asIter, table).value.result.Some?
    ensures run.Ran? && ParseSexpToConditions(run.output, asIter, table).Ok?
    ensures Get(ConditionsDictForSolution(run, asIter, table).value.result.value, op, [])
      == WithOpcode(ParseSexpToConditions(run.output, asIter, table).value, op)
  {
    var s := ConditionsForSolution(run, asIter, table);
    ConditionsByOpcodeGroups(s.value.result.value);
  }
}

=== FILE: types.dfy ===
/**
 Data model shared by the condition-extraction engine: bytes, the executed
 puzzle's output tree, opcodes, condition records, coins and announcements,
 and the outcome types that stand for Python's "return a value or raise".
 */
module Types {

  newtype byte = x: int | 0 <= x < 0x100

  type Bytes = seq<byte>

  /** The range `uint64(...)` accepts. */
  type uint64 = x: int | 0 <= x < 0x1_0000_0000_0000_0000

  datatype Option<+T> = None | Some(value: T) {
    function GetOr(default: T): T {
      match this
      case Some(v) => v
      case None => default
    }
  }

  /** The consensus error codes condition_tools.py returns. */
  datatype Err = InvalidCondition | SexpError

  /** The exceptions that can cross condition_tools.py: raised by
      condition_tools.py itself (`IndexError`), by the tree iterator (`ConsensusError` and any other),
      by the interpreter (`EvalError`) or by the public-key decoder. */
  datatype Exception = IndexError | ConsensusError | EvalError | PublicKeyError

  /** A function returning an `(error, value)` tuple that may also raise. */
  datatype Outcome<+T> = Ok(value: T) | Error(err: Err) | Raised(exc: Exception)

  /** A function returning a plain value that may also raise. */
  datatype Py<+T> = Return(value: T) | Raise(exc: Exception)

  /** A node of a puzzle's output. `List(items)` is a node for which `listp()`
      holds, `items` being what `as_python()` makes of it; an atom is a byte
      string. CLVM's empty list (nil) is the atom `Atom([])`; `List([])`
      stands for no node a puzzle can produce. */
  datatype SExp = Atom(bytes: Bytes) | List(items: seq<SExp>)

  /** How the iterator returned by `as_iter()` ends. */
  datatype Stop = Exhausted | Interrupted(exc: Exception)

  /** What `as_iter()` does: yield `yielded` in order, then end as `stop` says. */
  datatype Iteration = Iteration(yielded: seq<SExp>, stop: Stop)

  /** What `run_with_cost` does: raise, or return the cost and the output tree. */
  datatype RunResult = RunRaised(exc: Exception) | Ran(cost: uint64, output: SExp)

  /** ConditionOpcode. The opcodes condition_tools.py treats specially are named;
      every other member of the enumeration is an `OtherOpcode`. */
  datatype Opcode =
    | Unknown
    | AggSig
    | AggSigMe
    | CreateCoin
    | CreateAnnouncementWithId
    | CreateAnnouncementWithPuzzleHash
    | OtherOpcode(code: Bytes)

  /** A condition: its opcode and the arguments that followed it. */
  datatype ConditionVarPair = ConditionVarPair(opcode: Opcode, vars: seq<SExp>)

  /** A dict mapping opcodes to condition lists, as its entries in insertion order. */
  type ConditionsDict = seq<(Opcode, seq<ConditionVarPair>)>

  datatype Coin = Coin(parentCoinInfo: Bytes, puzzleHash: Bytes, amount: int)

  datatype Announcement = Announcement(originInfo: Bytes, message: Bytes)

  /** A BLS public key; only the decoder passed in as a parameter makes one,
      and the model never looks inside. */
  datatype G1Element = G1Element(point: Bytes)
}
